=== FILE: README.md ===
# Railway booking rules, modelled in Dafny

This project models the booking rules of a railway ticket backend. That backend is a Django REST application with two apps: `tickets`, which holds routes, stops, carriages, tickets and orders, and `users`, which holds discounts and signup. The model covers:

- **Seat availability.** A carriage's free seats are `1..seat_amount` minus the seat numbers its tickets hold. A route's free-seat count is the sum, over its carriages, of seat amount minus ticket count.
- **Ticket purchase.** A seat number above the carriage's seat amount is refused. A seat is unavailable only when a ticket matches it on arrival point, carriage *and* seat number. The price is the arrival stop's cumulative fare minus the departure stop's.
- **Pending-order aggregation.** The ticket's price is charged to the buyer's first pending order. If there is none, a new pending order is created. The ticket then points at that order.
- **Route creation.** The route is inserted with one stop per requested point, numbered `1..N` in request order.
- **Route search.** The search takes routes departing from a point, plus routes with a non-final stop there. It then applies optional day and destination filters and drops routes that left before today.
- **Dispatch tables.** The per-action permission and serializer tables of the views, and the order view's status filter.
- **Discounts and signup.** The discount-type serializer and the model's save check. The remaining-uses / expired state of a discount. The defaults the signup serializer fills in.

All state is one immutable `Db` value (`records.dfy`). Each table is a sequence of rows in the order the database returns them. `select ...[0]` is `First`, so an empty result is `Err(LookupError(table))`, which models the `IndexError` the source would raise. Prices are integer minor units and times are integer seconds. A calendar date is `DateOf(t) = t / 86400`, and "today" is a parameter. Every operation is a pure function. The validating and querying ones return a `Result`: the value, or the error the web layer surfaces, which is either a per-field validation error, a failed lookup, a 400 response, a model validation error or a type error. The inserting ones (`RouteBuilder.CreateRoute`, `Orders.ChargePending`, `Orders.CreateTicket`) run after validation and return the new database value directly.

Modules: `Outcomes` (results and errors), `Lookup` (first-row lookup and filters), `Records` (the `tickets` records), `Seats`, `TicketValidation`, `Orders`, `RouteBuilder`, `RouteSearch`, `Dispatch`, `Discounts`, `Signup`.

### Behaviour of the code worth noting

- Departing from a route's own origin is not priced at 0. The departure point is looked up among the route's stops with `[0]` before any emptiness check, so an origin that is not a stop is a lookup failure. The "departure price 0" branch and the "No such arrival point" error are unreachable (`TicketValidation.OriginDepartureFailsLookup`).
- Route creation checks neither ascending fares nor ascending times. `to_internal_value` returns the data unchanged (`RouteBuilder.FaresAndTimesNotValidated`).
- Seat uniqueness is per (arrival point, carriage, seat number), not per (carriage, seat number). Two tickets can therefore share a seat (`TicketValidation.SameSeatOtherArrivalAccepted`). The route's seat count then undercounts free seats (`Seats.DuplicateSeatUndercounts`).
- The route search code unions a Python list with a queryset (`|=`). It then calls `.filter` and `.exclude` on that list, and reads `.id` from an integer `route` column, so as written it would raise. The model gives the evident set semantics: a union, then filters, returned as a set.
- The insert that creates a new pending order writes a column named `user` holding the user object. The order table's foreign-key column is `user_id`, which is also what the selects before and after it filter on. As written, that insert cannot create the order. The model appends the evidently intended row: a pending order for the user with the ticket's price as its total.
- The route representation fetches several rows with `[0]`: the point of each of the route's stops and that point's city name, then the route's departure point and its city name, and the fare of the highest-numbered stop of the whole stop table. Any of those fetches can fail. A point's `arrival_city` is a plain integer column, so deleting a city through the city view leaves points naming a city with no row, and every route through such a point fails to be represented (`Seats.PointShown`). A route created with departure point 0, which route validation lets through, has no departure-point row, so its representation fails (`Seats.RouteCarriages`). The carriage-seats representation nests it and fails with it.
- The seat number is bounded only from above (`seat_amount < seat_number` is refused). Seat 0 and negative seats are accepted (`TicketValidation.NonPositiveSeatAccepted`). Such a ticket lowers the route's seat count without holding any seat in `1..seat_amount`, a second way the count undercounts free seats (`Seats.OutOfRangeSeatUndercounts`).
- The carriage view's `available_seats` filters tickets with `Ticket.objects.filter(carriage=carriage)`, passing a `Carriage` instance to the ticket's integer `carriage` column. Django rejects that with a `TypeError` when it builds the filter, so as written the action raises for every existing carriage. The model gives the evident meaning: the tickets whose `carriage` is the carriage's id (`Seats.AvailableSeats`).
- The `seat_amount` serializer field is a `CharField`, compared with the integer 100, which would raise in Python 3. The model compares integers.
- `RailwayAPI` comes after `ModelViewSet` in every viewset's bases, so the framework's `get_permissions` and `get_serializer_class` shadow its own. `Dispatch.GetPermissions` and `Dispatch.GetSerializerClass` model what `RailwayAPI` defines, not what those viewsets run. Only the route viewset's own override (`Dispatch.RouteViewSerializer`) is live.

## Model

| member | source | states |
|---|---|---|
| Records.ParseStatus | tickets/models.py:61-66 | a status string is accepted exactly when it is one of the three choice keys, and the parsed status names it back |
| Records.StatusNameRoundTrip | tickets/models.py:61-65 | every order status survives naming then parsing |
| Seats.SeatRange | tickets/views.py:99 | the seat range holds exactly the integers `1..seat_amount` (empty for a non-positive amount) |
| Seats.TakenSeats | tickets/views.py:97-98 | the taken-seat set holds exactly the seat numbers of the carriage's tickets |
| Seats.FreeSeats | tickets/views.py:101 | a seat is free iff it lies in `1..seat_amount` and no ticket of the carriage holds it |
| Seats.AvailableSeats | tickets/views.py:94-102 | a missing carriage is a lookup failure; otherwise the result is exactly the in-range seats no ticket of that carriage holds |
| Seats.RouteSeatCount | tickets/serializers.py:133-142 | a carriage list holding none of the route's carriages counts 0; when no carriage of the route has more tickets than seats, the count is non-negative |
| Seats.RouteSeatCountConcat | tickets/serializers.py:137-142 | the count over two carriage lists together is the sum of their counts, so carriages contribute independently of their order |
| Seats.PointShown | tickets/serializers.py:38-42 | representing a point fails with a point lookup when the point has no row and with a city lookup when its city has no row; otherwise it yields the point's row and the name of a city row with the point's city id |
| Seats.RouteCarriages | tickets/serializers.py:102-145 | the route representation fails exactly when a stop's point or the departure point cannot be represented, or the stop table is empty; the error is that of the first failing stop in table order, else the departure point's, else a stop lookup; otherwise the carriage summary is the route's seat count, left out exactly when that count is 0 |
| Seats.RouteCarriagesHiddenIffFull | tickets/serializers.py:143-144 | with consistent seat data, the carriage summary is left out exactly when no seat of the route is free |
| Seats.CarriageSeats | tickets/serializers.py:207-225 | a missing route row is a route lookup failure; with the route present, the representation fails exactly when the nested route representation does, with its error; otherwise the seat list is the carriage's free-seat set |
| Seats.FreeAndTakenPartitionRange | tickets/serializers.py:213-217 | free seats are disjoint from taken seats, and together with the in-range taken seats they make up `1..seat_amount` |
| Seats.ValidateSeatAmount | tickets/serializers.py:177-180 | a seat amount is accepted, unchanged, iff it is at most 100; otherwise a seat-amount error "Max seat amount is 100" |
| Seats.TakenSeatsAtMostTickets | tickets/serializers.py:137-140 | a carriage's set of taken seat numbers is no larger than its list of tickets |
| Seats.RouteSeatCountAtMostFreeSeatTotal | tickets/serializers.py:133-142 | whatever the seat data, the route's "seat amount minus ticket count" sum never exceeds the total number of free seats |
| Seats.RouteSeatCountIsFreeSeatTotal | tickets/serializers.py:133-144 | when every carriage of the route holds distinct in-range seats, the route's "seat amount minus ticket count" sum equals the total number of free seats |
| Seats.FreeSeatsSize | tickets/serializers.py:139-141 | with consistent seat data, one carriage's seat amount minus its ticket count is the size of its free-seat set |
| Seats.DuplicateSeatUndercounts | tickets/serializers.py:138-142 | a seat held twice makes the route count report 0 while a seat is still free |
| Seats.OutOfRangeSeatUndercounts | tickets/serializers.py:138-142 | a ticket on seat 0 makes a two-seat carriage's route count report 1 while both seats are free |
| TicketValidation.SegmentFare | tickets/serializers.py:256-277 | the fare succeeds iff both points are stops of the route and the departure stop is strictly before the arrival stop; it is arrival fare minus departure fare; a missing stop is a lookup failure |
| TicketValidation.ValidateTicket | tickets/serializers.py:237-278 | a missing carriage is a lookup failure; an accepted request has a seat number not above the seat amount, no ticket matches its arrival point, carriage and seat, and its price is the segment fare of the carriage's route |
| TicketValidation.SeatAboveAmountRejected | tickets/serializers.py:244-245 | a seat number above the carriage's seat amount is refused on the seat-number field |
| TicketValidation.UnavailableIffSameArrivalCarriageSeat | tickets/serializers.py:247-252 | for a seat number not above the seat amount, "This seat is not available" is returned iff a ticket matches the arrival point, carriage and seat number |
| TicketValidation.SameSeatOtherArrivalAccepted | tickets/serializers.py:247-252 | a ticket holding the same seat in the same carriage does not block the request when it is for another arrival point and no ticket matches all three fields |
| TicketValidation.NonPositiveSeatAccepted | tickets/serializers.py:244-245 | a seat number of 0 or below passes the seat check and is accepted like any free seat |
| TicketValidation.FareDecidesAfterSeatChecks | tickets/serializers.py:256-278 | past the seat checks, the outcome is exactly the segment fare's outcome |
| TicketValidation.ReversedSegmentIsInvalidOrder | tickets/serializers.py:274-275 | a departure stop not strictly before the arrival stop gives "Invalid order" on the arrival-point field |
| TicketValidation.OriginDepartureFailsLookup | tickets/serializers.py:263-269 | departing from a route origin that is not a stop is a lookup failure, never a zero departure fare |
| TicketValidation.SegmentFaresAdd | tickets/serializers.py:277 | the fares A to B and B to C add up to the fare A to C |
| TicketValidation.FareNonNegative | tickets/serializers.py:273-277 | on a route whose stop fares follow stop order, every fare is non-negative |
| TicketValidation.TwoStopRouteFares | tickets/serializers.py:256-277 | with stops A (fare 10) then B (fare 25), A to B costs 15, B to A is an invalid order, and the origin to B fails the lookup |
| Orders.ChargePending | tickets/serializers.py:305-329 | with no pending order, one pending order for exactly the price is appended under the next order id; otherwise the rows with the first pending order's id get that order's total plus the price; no other row or table changes |
| Orders.CreateTicket | tickets/serializers.py:302-355 | the order table changes as for the charge; the inserted ticket takes the next ticket id, carries the request and the price, and points at the user's first pending order, which is the new order or the old one with the price added; the next ticket id advances by one and no other table or counter changes except the order id counter as for the charge |
| Orders.Purchase | tickets/serializers.py:237-355 | a purchase succeeds iff validation does, and then is the ticket creation on the validated data |
| Orders.CreateTicketKeepsLedger | tickets/serializers.py:305-342 | if every order total equals the sum of the prices of its tickets before a ticket is created, the same holds after |
| Orders.PurchaseKeepsOnePending | tickets/serializers.py:305-333 | a buyer with at most one pending order has exactly one after a purchase, and other users' pending-order counts do not change |
| Orders.TwoPurchasesShareOneOrder | tickets/serializers.py:310-329 | buying for 10 then for 5 with no pending order creates one order row, whose total is 15 |
| Orders.PurchaseTakesSeat | tickets/serializers.py:247-252 | after a purchase its seat is not available and the same request is refused as unavailable |
| Orders.StatusOrders | tickets/views.py:173-178 | any status other than fail, success or pending is a "No such status" bad request; otherwise the result is exactly the orders with that status, across all users |
| Orders.StatusQueriesPartitionOrders | tickets/views.py:173-178 | the answers of the fail, success and pending queries together are exactly as many as the order table's rows |
| RouteBuilder.ValidateRoute | tickets/serializers.py:88-101 | a route request is accepted unchanged iff every stop's arrival point and the non-zero departure point exist; otherwise a lookup failure |
| RouteBuilder.NumberStops | tickets/serializers.py:159-161 | the i-th requested stop becomes a stop of order i + 1 with the same point, fare and time |
| RouteBuilder.CreateRoute | tickets/serializers.py:147-168 | the route is appended under the next id, and one stop per request element follows the existing stops, in request order, numbered from 1; the route id counter advances by one and no other table or counter changes |
| RouteBuilder.CreatedRouteStops | tickets/serializers.py:159-166 | the new route's stops are exactly the numbered requested stops, so its stop count is the number requested |
| RouteBuilder.FaresAndTimesNotValidated | tickets/serializers.py:96-101 | changing the fares, times or departure time of a request never changes whether it is accepted |
| RouteSearch.DepartingRoutes | tickets/serializers.py:388-391 | exactly the routes whose departure point is the given point |
| RouteSearch.BoardingRoutes | tickets/serializers.py:393-400 | exactly the routes with a stop at the point whose order differs from the route's stop count |
| RouteSearch.FoundRoutes | tickets/serializers.py:381-412 | a missing or unknown departure point, or an unknown arrival point, is a field error; otherwise a route is found iff it departs from or boards at the point, runs on the given day, reaches the given arrival point, and did not leave before today |
| RouteSearch.Search | tickets/serializers.py:381-414 | the search fails as the selection does; otherwise it fails exactly when some found route's representation fails, with that representation's error, and succeeds with the found routes |
| RouteSearch.SearchFailsOnEmptyStopTable | tickets/serializers.py:414 | a route found from point 5 on a database with no stops makes the search fail with a stop lookup |
| RouteSearch.CreatedRouteRepresents | tickets/serializers.py:102-127 | a route created from a validated request with at least one stop, whose stop points and departure point all have point rows and city rows, can be represented |
| RouteSearch.FinalStopNotBoarded | tickets/serializers.py:398-400 | a route met at the point only at its final stop is not found |
| RouteSearch.DayFilterNarrows | tickets/serializers.py:403-405 | adding a day filter only removes routes |
| RouteSearch.ArrivalFilterNarrows | tickets/serializers.py:408-410 | adding an existing arrival point only removes routes |
| RouteSearch.LaterTodayNarrows | tickets/serializers.py:412 | a later today only removes routes |
| RouteSearch.CreatedRouteFoundFromOrigin | tickets/serializers.py:388-391 | a newly created route from an existing point that has not left is found by a search from that point |
| Dispatch.ActionPermissions | tickets/views.py:12-19 | list and retrieve map to AllowAny; create, update, partial_update and destroy map to IsAdminUser; every other action has no entry |
| Dispatch.GetPermissions | tickets/views.py:25-36 | a table entry wins; otherwise non-empty decorator permission classes; no action, a missing or undecorated attribute, or a decorator with no or empty permission classes gives the view default |
| Dispatch.ExtraActionsUseDefault | tickets/views.py:94-95 | the decorated extra actions of the viewsets built on `RailwayAPI` (`available_seats`, `search_route`, `get_carriages`), none of which sets permission classes, all get the view default |
| Dispatch.PermissionsFallBackToDefault | tickets/views.py:28-36 | no action, or an action with neither a table entry nor a decorator, gets the view default |
| Dispatch.EmptyDecoratorPermissionsUseDefault | tickets/views.py:36 | an empty decorator permission list falls back to the view default |
| Dispatch.TableOverridesDefault | tickets/views.py:12-27 | read actions (list, retrieve) are AllowAny and write actions (create, update, partial_update, destroy) IsAdminUser, whatever the view default |
| Dispatch.GetSerializerClass | tickets/views.py:22-23 | the action's table entry, else the inherited serializer class |
| Dispatch.RouteViewSerializer | tickets/views.py:120-125 | the search serializer iff the action is search_route; the route serializer for every other action or none |
| Discounts.ParseKind | users/models.py:20-24 | a type name is a discount kind iff it is limited or permanent, and the kind names it back |
| Discounts.KindNameRoundTrip | users/models.py:20-23 | every discount kind survives naming then parsing |
| Discounts.CheckPercent | users/models.py:25 | a percent passes the field validators iff it lies in 0..100 |
| Discounts.SaveDiscountType | users/models.py:28-31 | saving fails iff the type is limited with a missing or zero limit; other types save unchanged |
| Discounts.DeclaredFields | users/serializers.py:41-43 | the name, percent and limit must all be given and the name is at most 32 characters |
| Discounts.ValidateDiscountType | users/serializers.py:45-57 | a name other than limited or permanent is refused; limited with a zero limit is refused; permanent with a non-zero limit loses it; limited with a non-zero limit and permanent with a zero limit are accepted unchanged |
| Discounts.ValidatedTypeSaves | users/serializers.py:51-52 | every type the serializer accepts passes the model's save check |
| Discounts.PercentUnboundedBySerializer | users/serializers.py:42 | the serializer accepts a percent of 150 that the model's validators reject |
| Discounts.NewDiscount | users/models.py:43 | a new discount has been used 0 times |
| Discounts.State | users/models.py:45-53 | a permanent discount is unlimited; a limited one reports exactly limit minus usage as the uses left when that is positive, and is expired otherwise; a limited one without a limit fails |
| Discounts.UseCountsDown | users/models.py:46-50 | one more use lowers the uses left by one, and using the last one expires the discount |
| Discounts.NewDiscountState | users/models.py:43-48 | a new discount of a savable limited type has all its uses left iff the limit is positive |
| Signup.SignupToInternal | users/serializers.py:16-25 | accepted data is never staff, keeps the given email, username and names, stores the hash of the given password, and fills a missing first or last name with the empty string |
| Signup.SignupKeepsGivenNames | users/serializers.py:16-25 | data with all names given comes back as given, with the password hashed and staff status cleared |

## Left out

- Persistence: SQL text building and cursor execution (`tickets/sql_queries.py`) and the schema migration are not part of this model. The database is the `Db` value, and each insert appends a row under the table's next autoincrement id.
- Read-back of inserted rows. The created route is read back as the highest-id route, which under sequential autoincrement is the inserted one, so `RouteBuilder.CreateRoute` returns the inserted route directly.
- Concurrency and atomicity: the source uses no transactions, so the model is strictly sequential.
- Serializer representation (`to_representation` nesting and formatting). What is modelled of it: the route representation's failing row lookups, including the city-name fetch of each represented point, and its carriage summary (`Seats.RouteCarriages`), which the carriage-seats representation and the route search both go through. The route representation's "price" comes from an unscoped global query and is not a per-route fare, so only its failing lookup is modelled.
- RouteSearch.Search: returns the set of found routes, not their serialized representations. When several found routes fail to be represented, the one reported is the first in table order; Python's iteration order over the set is not specified.
- Seats.AvailableSeats: does not model the `TypeError` of the ticket filter built from a carriage instance; it filters tickets by the carriage's id.
- Orders.ChargePending: does not model the failure of the new-order insert, which writes a column `user` that the order table does not have; it appends the evidently intended pending order.
- Checkout, discount application and payment are not in the modelled code. The order patch and buy serializers only declare fields.
- The password hash function (`make_password`) is a parameter of `Signup.SignupToInternal`; authentication and the permission classes themselves are not modelled.
- Decimal and float arithmetic. Prices are integer minor units and percents are whole numbers. Timestamps are seconds, and `DateOf` ignores time zones.
- The framework's own field validation is modelled for the discount-type and signup serializers and the search request only, as required fields and the declared `max_length`. The ticket, route and stop requests are modelled as already complete: their required-field errors (tickets/serializers.py:229-233, :83-86, :53-56) are not modelled. Whitespace trimming, blank-string rejection and decimal-format checks are not modelled. The framework reports every failing field at once; the model reports the first one in declaration order.
- The raw request data read with `data.get` is modelled as already typed. A limit sent as the string "0" (truthy in Python) is not distinguished from the integer 0.
- The search's `validate_departure_city` / `validate_arrival_city` errors are reported one at a time: a departure error hides an arrival error.
- The list-versus-queryset type errors in route search and the `CharField` `seat_amount` comparison are replaced by their evident integer and set meaning (see above). The route's free-seat count (`Seats.RouteSeatCount`) can go negative, as in the source.
- Dispatch.GetPermissions: permission classes are returned as the list of classes rather than instantiated objects.
- Dispatch.GetSerializerClass: `super().serializer_class` in `RailwayAPI` is evaluated before the lookup and would fail there; the model takes the inherited class as a parameter.

=== FILE: discounts.dfy ===
/** Discount types and discounts of the `users` app: the type serializer's
    checks, the model's save check and percent bounds, and the remaining-uses
    state a discount reports. Percents are whole numbers. */
module Discounts {
  import opened Outcomes

  const InvalidTypeName := "Invalid Type name"
  const LimitNeeded := "Provide limit for discount if you set limited type"
  const LimitNeededOnSave := "When discount is limited you need to provide the limit"
  const MaxNameLength := 32

  /** The choice keys of `DISCOUNT_CHOICES`. */
  datatype DiscountKind = Limited | Permanent

  function KindName(k: DiscountKind): string {
    match k
    case Limited => "limited"
    case Permanent => "permanent"
  }

  function ParseKind(s: string): (r: Option<DiscountKind>)
    ensures r.Some? ==> KindName(r.value) == s
    ensures r.None? <==> s !in {"limited", "permanent"}
  {
    if s == "limited" then Some(Limited)
    else if s == "permanent" then Some(Permanent)
    else None
  }

  lemma KindNameRoundTrip(k: DiscountKind)
    ensures ParseKind(KindName(k)) == Some(k)
  {
  }

  /** A stored discount type; a missing limit is `None`. */
  datatype DiscountType = DiscountType(id: nat, kind: DiscountKind, percent: int, limit: Option<int>)

  /** Python truthiness of the optional integer limit. */
  predicate Truthy(limit: Option<int>) {
    limit.Some? && limit.value != 0
  }

  /** The field validators of `discount_percent`: at least 0, at most 100. */
  function CheckPercent(p: int): (r: Result<int>)
    ensures r.Ok? <==> 0 <= p <= 100
    ensures r.Ok? ==> r.value == p
    ensures r.Err? ==> r.error.FieldError? && r.error.field == DiscountPercent
  {
    if p < 0 then Err(FieldError(DiscountPercent, "Ensure this value is greater than or equal to 0.0."))
    else if p > 100 then Err(FieldError(DiscountPercent, "Ensure this value is less than or equal to 100.0."))
    else Ok(p)
  }

  /** `DiscountType.save`: a limited type needs a non-zero limit. */
  function SaveDiscountType(t: DiscountType): (r: Result<DiscountType>)
    ensures r.Err? <==> t.kind == Limited && !Truthy(t.limit)
    ensures r.Err? ==> r.error == ModelError(LimitNeededOnSave)
    ensures r.Ok? ==> r.value == t
  {
    if t.kind == Limited && !Truthy(t.limit) then Err(ModelError(LimitNeededOnSave)) else Ok(t)
  }

  /** The raw request body of the discount type serializer. */
  datatype DiscountTypeInput = DiscountTypeInput(name: Option<string>, percent: Option<int>, limit: Option<int>)

  /** The validated data; `limit` is `None` once it has been removed. */
  datatype DiscountTypeData = DiscountTypeData(name: string, percent: int, limit: Option<int>)

  /** The declared fields: all three are required, the name at most 32
      characters long. The first failing field in declaration order is
      reported. */
  function DeclaredFields(input: DiscountTypeInput): (r: Result<DiscountTypeData>)
    ensures r.Ok? <==> input.name.Some? && |input.name.value| <= MaxNameLength && input.percent.Some? && input.limit.Some?
    ensures r.Ok? ==> r.value == DiscountTypeData(input.name.value, input.percent.value, input.limit)
  {
    if input.name.None? then Err(FieldError(DiscountTypeName, Required))
    else if |input.name.value| > MaxNameLength then
      Err(FieldError(DiscountTypeName, "Ensure this field has no more than 32 characters."))
    else if input.percent.None? then Err(FieldError(DiscountPercent, Required))
    else if input.limit.None? then Err(FieldError(DiscountLimit, Required))
    else Ok(DiscountTypeData(input.name.value, input.percent.value, input.limit))
  }

  /** `DiscountTypeSerializer.to_internal_value`. */
  function ValidateDiscountType(input: DiscountTypeInput): (r: Result<DiscountTypeData>)
    ensures DeclaredFields(input).Err? ==> r == DeclaredFields(input)
    ensures DeclaredFields(input).Ok? && ParseKind(input.name.value).None? ==>
      r == Err(FieldError(DiscountTypeName, InvalidTypeName))
    ensures DeclaredFields(input).Ok? && input.name.value == "limited" && !Truthy(input.limit) ==>
      r == Err(FieldError(DiscountLimit, LimitNeeded))
    ensures DeclaredFields(input).Ok? && input.name.value == "permanent" && Truthy(input.limit) ==>
      r == Ok(DeclaredFields(input).value.(limit := None))
    ensures r.Ok? ==> ParseKind(r.value.name).Some?
    ensures r.Ok? && r.value.name == "limited" ==> r.value == DeclaredFields(input).value && Truthy(r.value.limit)
    ensures r.Ok? && r.value.name == "permanent" && !Truthy(input.limit) ==> r.value == DeclaredFields(input).value
    ensures DeclaredFields(input).Ok? && ParseKind(input.name.value).Some?
            && !(input.name.value == "limited" && !Truthy(input.limit))
            && !(input.name.value == "permanent" && Truthy(input.limit)) ==>
      r == DeclaredFields(input)
  {
    var data :- DeclaredFields(input);
    if ParseKind(data.name).None? then Err(FieldError(DiscountTypeName, InvalidTypeName))
    else if data.name == "limited" && !Truthy(input.limit) then Err(FieldError(DiscountLimit, LimitNeeded))
    else if data.name == "permanent" && Truthy(input.limit) then Ok(data.(limit := None))
    else Ok(data)
  }

  /** A type the serializer accepts is one the model agrees to save. */
  lemma ValidatedTypeSaves(input: DiscountTypeInput, id: nat)
    requires ValidateDiscountType(input).Ok?
    ensures var d := ValidateDiscountType(input).value;
            SaveDiscountType(DiscountType(id, ParseKind(d.name).value, d.percent, d.limit)).Ok?
  {
  }

  /** The serializer does not bound the percent: only the model's field
      validators do, and `save` does not run them. */
  lemma PercentUnboundedBySerializer()
    ensures ValidateDiscountType(DiscountTypeInput(Some("permanent"), Some(150), Some(0))).Ok?
    ensures CheckPercent(150).Err?
  {
  }

  datatype Discount = Discount(id: nat, discountType: nat, user: nat, usageAmount: int)

  const DefaultUsage := 0

  /** A discount created without a usage amount. */
  function NewDiscount(id: nat, discountType: nat, user: nat): (d: Discount)
    ensures d.usageAmount == 0
    ensures d.id == id && d.discountType == discountType && d.user == user
  {
    Discount(id, discountType, user, DefaultUsage)
  }

  /** What a discount's `__str__` reports. */
  datatype UsageState = Remaining(left: int) | Expired | Unlimited

  /** The remaining-uses state: a limited type reports the uses left while
      positive and is expired otherwise (a missing limit makes the
      subtraction fail); a permanent type reports neither. */
  function State(d: Discount, t: DiscountType): (r: Result<UsageState>)
    ensures t.kind == Permanent <==> r == Ok(Unlimited)
    ensures r == Err(TypeMismatch) <==> t.kind == Limited && t.limit.None?
    ensures r.Ok? && r.value.Remaining? ==> t.limit.Some? && r.value.left == t.limit.value - d.usageAmount && r.value.left > 0
    ensures t.kind == Limited && t.limit.Some? && t.limit.value - d.usageAmount > 0 ==>
      r == Ok(Remaining(t.limit.value - d.usageAmount))
    ensures r == Ok(Expired) <==> t.kind == Limited && t.limit.Some? && t.limit.value - d.usageAmount <= 0
  {
    match t.kind
    case Permanent => Ok(Unlimited)
    case Limited =>
      match t.limit
      case None => Err(TypeMismatch)
      case Some(limit) => if limit - d.usageAmount > 0 then Ok(Remaining(limit - d.usageAmount)) else Ok(Expired)
  }

  /** One more use takes one from the uses left, and the last one expires
      the discount. */
  lemma UseCountsDown(d: Discount, t: DiscountType)
    requires State(d, t).Ok? && State(d, t).value.Remaining?
    ensures var left := State(d, t).value.left;
            State(d.(usageAmount := d.usageAmount + 1), t) == if left == 1 then Ok(Expired) else Ok(Remaining(left - 1))
  {
  }

  /** A new discount of a savable limited type has all its uses left, or is
      expired at once when the limit is negative. */
  lemma NewDiscountState(id: nat, t: DiscountType, user: nat)
    requires t.kind == Limited && SaveDiscountType(t).Ok?
    ensures var s := State(NewDiscount(id, t.id, user), t);
            s.Ok? && (t.limit.value > 0 <==> s.value == Remaining(t.limit.value))
  {
  }
}

=== FILE: dispatch.dfy ===
/** The per-action lookup tables of the ticket views: which permission
    classes and which serializer an action gets. `RailwayAPI` is listed
    after `ModelViewSet` among each viewset's bases, so the framework's own
    `get_permissions` and `get_serializer_class` come first in the method
    resolution order and `RailwayAPI`'s versions are not the ones called;
    they are modelled here as the functions they define. Only the route
    viewset's own `get_serializer_class` override is in effect. */
module Dispatch {
  import opened Outcomes

  datatype Permission = AllowAny | IsAuthenticated | IsAdminUser

  datatype SerializerClass =
    | CitySerializer
    | ArrivalPointSerializer
    | CarriageTypeSerializer
    | CarriageSerializer
    | RouteSerializer
    | SearchRouteSerializer
    | TicketSerializer
    | OrderSerializer

  /** What `getattr(view, action)` finds: no attribute, a plain method, or an
      `@action` method with the permission classes its decorator was given. */
  datatype ActionAttr = Missing | Plain | Decorated(permissionClasses: Option<seq<Permission>>)

  /** `permission_action_classes`. */
  function ActionPermissions(action: string): (r: Option<seq<Permission>>)
    ensures action in {"list", "retrieve"} <==> r == Some([AllowAny])
    ensures action in {"create", "update", "partial_update", "destroy"} <==> r == Some([IsAdminUser])
    ensures r.None? <==> action !in {"list", "retrieve", "create", "update", "partial_update", "destroy"}
  {
    if action == "list" || action == "retrieve" then Some([AllowAny])
    else if action == "create" || action == "update" || action == "partial_update" || action == "destroy" then Some([IsAdminUser])
    else None
  }

  /** `RailwayAPI.get_permissions`: the table entry for the action; failing
      that, the permission classes of the action's decorator, if non-empty;
      failing that, the view's default. */
  function GetPermissions(action: Option<string>, attrs: map<string, ActionAttr>, viewDefault: seq<Permission>): (r: seq<Permission>)
    ensures action.Some? && ActionPermissions(action.value).Some? ==> r == ActionPermissions(action.value).value
    ensures action.Some? && ActionPermissions(action.value).None? && action.value != ""
            && action.value in attrs && attrs[action.value].Decorated?
            && attrs[action.value].permissionClasses.Some? && attrs[action.value].permissionClasses.value != []
            ==> r == attrs[action.value].permissionClasses.value
    ensures action.None? ==> r == viewDefault
    ensures action.Some? && ActionPermissions(action.value).None?
            && (action.value !in attrs || !attrs[action.value].Decorated?
                || attrs[action.value].permissionClasses.None? || attrs[action.value].permissionClasses.value == [])
            ==> r == viewDefault
    ensures r != viewDefault ==> r in {[AllowAny], [IsAdminUser]} || exists a :: a in attrs.Values && a.Decorated? && a.permissionClasses == Some(r)
  {
    var entry := if action.Some? then ActionPermissions(action.value) else None;
    match entry
    case Some(classes) => classes
    case None =>
      var declared :=
        if action.Some? && action.value != "" && action.value in attrs && attrs[action.value].Decorated?
        then attrs[action.value].permissionClasses
        else None;
      if declared.Some? && declared.value != [] then declared.value else viewDefault
  }

  /** `RailwayAPI.get_serializer_class`: the action's table entry, else the
      class the next class in line declares. */
  function GetSerializerClass(table: map<string, SerializerClass>, action: Option<string>, inherited: SerializerClass): (r: SerializerClass)
    ensures action.Some? && action.value in table ==> r == table[action.value]
    ensures (action.None? || action.value !in table) ==> r == inherited
  {
    if action.Some? && action.value in table then table[action.value] else inherited
  }

  /** The route viewset's table. */
  const RouteSerializerTable: map<string, SerializerClass> := map["search_route" := SearchRouteSerializer]

  /** The route viewset's own `get_serializer_class`, the one in effect. */
  function RouteViewSerializer(action: Option<string>): (r: SerializerClass)
    ensures r == SearchRouteSerializer <==> action == Some("search_route")
    ensures r != SearchRouteSerializer ==> r == RouteSerializer
  {
    GetSerializerClass(RouteSerializerTable, action, RouteSerializer)
  }

  /** Without an action, or for an action with no table entry and no
      decorator permissions, the view default applies. */
  lemma PermissionsFallBackToDefault(action: Option<string>, attrs: map<string, ActionAttr>, viewDefault: seq<Permission>)
    requires action.None? || ActionPermissions(action.value).None?
    requires action.Some? ==> action.value !in attrs || !attrs[action.value].Decorated?
    ensures GetPermissions(action, attrs, viewDefault) == viewDefault
  {
  }

  /** An empty permission list on the decorator counts as none given. */
  lemma EmptyDecoratorPermissionsUseDefault(action: string, attrs: map<string, ActionAttr>, viewDefault: seq<Permission>)
    requires ActionPermissions(action).None?
    requires action in attrs && attrs[action] == Decorated(Some([]))
    ensures GetPermissions(Some(action), attrs, viewDefault) == viewDefault
  {
  }

  /** The extra actions of the viewsets built on `RailwayAPI`, as their
      decorators declare them: none sets `permission_classes`. The map is
      keyed per action name; each action lives on its own viewset (the
      carriage view's `available_seats`, the route view's `search_route`
      and `get_carriages`), and no two share a name. */
  const ExtraActions: map<string, ActionAttr> := map[
    "available_seats" := Decorated(None),
    "search_route" := Decorated(None),
    "get_carriages" := Decorated(None)]

  /** Every extra action of those viewsets gets its view's default
      permissions. */
  lemma ExtraActionsUseDefault(viewDefault: seq<Permission>)
    ensures forall a :: a in ExtraActions ==> GetPermissions(Some(a), ExtraActions, viewDefault) == viewDefault
  {
  }

  /** Read actions are open to anyone and write actions need an admin,
      whatever the view's default. */
  lemma TableOverridesDefault(attrs: map<string, ActionAttr>, viewDefault: seq<Permission>)
    ensures GetPermissions(Some("list"), attrs, viewDefault) == [AllowAny]
    ensures GetPermissions(Some("retrieve"), attrs, viewDefault) == [AllowAny]
    ensures GetPermissions(Some("destroy"), attrs, viewDefault) == [IsAdminUser]
    ensures GetPermissions(Some("create"), attrs, viewDefault) == [IsAdminUser]
    ensures GetPermissions(Some("update"), attrs, viewDefault) == [IsAdminUser]
    ensures GetPermissions(Some("partial_update"), attrs, viewDefault) == [IsAdminUser]
  {
  }
}

=== FILE: lookup.dfy ===
/** First-row lookups and row filters over a table held as a sequence of rows
    in the order the database returns them. */
module Lookup {
  import opened Outcomes

  /** Position of the first row satisfying `p`, or `|s|` when there is none. */
  function FirstIndex<T>(s: seq<T>, p: T -> bool): (i: nat)
    ensures i <= |s|
    ensures forall j :: 0 <= j < i ==> !p(s[j])
    ensures i < |s| ==> p(s[i])
  {
    if |s| == 0 then 0
    else if p(s[0]) then 0
    else
      var k := FirstIndex(s[1..], p);
      assert forall j :: 1 <= j < 1 + k ==> s[j] == s[1..][j - 1];
      1 + k
  }

  /** The first row satisfying `p`, as `select ... [0]` fetches it. */
  function First<T>(s: seq<T>, p: T -> bool): (r: Option<T>)
    ensures r.None? <==> forall j :: 0 <= j < |s| ==> !p(s[j])
    ensures r.Some? ==> r.value in s && p(r.value)
    ensures r.Some? ==> FirstIndex(s, p) < |s| && r.value == s[FirstIndex(s, p)]
  {
    var i := FirstIndex(s, p);
    if i < |s| then Some(s[i]) else None
  }

  /** The rows satisfying `p`, in table order (a `filter` / `WHERE`). */
  function Filter<T(!new)>(s: seq<T>, p: T -> bool): (r: seq<T>)
    ensures |r| <= |s|
    ensures forall x :: x in r <==> x in s && p(x)
  {
    if |s| == 0 then []
    else if p(s[|s| - 1]) then Filter(s[..|s| - 1], p) + [s[|s| - 1]]
    else Filter(s[..|s| - 1], p)
  }

  lemma {:induction false} FilterAppend<T(!new)>(s: seq<T>, x: T, p: T -> bool)
    ensures Filter(s + [x], p) == if p(x) then Filter(s, p) + [x] else Filter(s, p)
  {
    assert (s + [x])[..|s + [x]| - 1] == s;
  }

  /** Two tables that agree row by row on their predicates have their first
      match at the same position. */
  lemma {:induction false} FirstIndexPointwise<T, U>(s: seq<T>, p: T -> bool, t: seq<U>, q: U -> bool)
    requires |s| == |t|
    requires forall i :: 0 <= i < |s| ==> p(s[i]) == q(t[i])
    ensures FirstIndex(s, p) == FirstIndex(t, q)
  {
  }

  /** Two tables that agree row by row on their predicates have filters of
      the same length. */
  lemma {:induction false} FilterLengthPointwise<T(!new), U(!new)>(s: seq<T>, p: T -> bool, t: seq<U>, q: U -> bool)
    requires |s| == |t|
    requires forall i :: 0 <= i < |s| ==> p(s[i]) == q(t[i])
    ensures |Filter(s, p)| == |Filter(t, q)|
  {
    if |s| > 0 {
      FilterLengthPointwise(s[..|s| - 1], p, t[..|t| - 1], q);
    }
  }

  lemma {:induction false} FilterNoMatch<T(!new)>(s: seq<T>, p: T -> bool)
    requires forall j :: 0 <= j < |s| ==> !p(s[j])
    ensures Filter(s, p) == []
  {
    if |s| > 0 {
      FilterNoMatch(s[..|s| - 1], p);
    }
  }

  lemma {:induction false} FilterAll<T(!new)>(s: seq<T>, p: T -> bool)
    requires forall j :: 0 <= j < |s| ==> p(s[j])
    ensures Filter(s, p) == s
  {
    if |s| > 0 {
      FilterAll(s[..|s| - 1], p);
      assert s[..|s| - 1] + [s[|s| - 1]] == s;
    }
  }

  lemma {:induction false} FilterConcat<T(!new)>(a: seq<T>, b: seq<T>, p: T -> bool)
    ensures Filter(a + b, p) == Filter(a, p) + Filter(b, p)
  {
    if |b| > 0 {
      var init := b[..|b| - 1];
      var last := b[|b| - 1];
      assert b == init + [last];
      assert a + b == (a + init) + [last];
      FilterConcat(a, init, p);
      FilterAppend(a + init, last, p);
      FilterAppend(init, last, p);
    } else {
      assert a + b == a;
    }
  }
}

=== FILE: orders.dfy ===
/** Orders: attaching a purchased ticket to the buyer's pending order (the
    ticket serializer's `create`), the whole purchase, and the order view's
    status filter. */
module Orders {
  import opened Outcomes
  import opened Lookup
  import opened Records
  import opened TicketValidation
  import opened Seats

  const NoSuchStatus := "No such status"

  function IsPendingOf(user: nat): Order -> bool {
    (o: Order) => o.status == Pending && o.user == user
  }

  /** The user's pending orders, in table order. */
  function PendingOf(orders: seq<Order>, user: nat): seq<Order> {
    Filter(orders, IsPendingOf(user))
  }

  /** The row `select ... where pending and user [0]` fetches. */
  function FirstPending(orders: seq<Order>, user: nat): Option<Order> {
    First(orders, IsPendingOf(user))
  }

  /** Charge `price` to the user's pending order: create a pending order for
      the amount when there is none, else add it to the first one. */
  function ChargePending(db: Db, user: nat, price: int): (r: Db)
    ensures FirstPending(db.orders, user).None? ==>
      r == db.(orders := db.orders + [Order(db.nextOrderId, Pending, price, user)], nextOrderId := db.nextOrderId + 1)
    ensures FirstPending(db.orders, user).Some? ==>
      var o := FirstPending(db.orders, user).value;
      && r == db.(orders := r.orders)
      && |r.orders| == |db.orders|
      && (forall i :: 0 <= i < |db.orders| && db.orders[i].id != o.id ==> r.orders[i] == db.orders[i])
      && (forall i :: 0 <= i < |db.orders| && db.orders[i].id == o.id ==>
            r.orders[i] == db.orders[i].(totalPrice := o.totalPrice + price))
    ensures r.tickets == db.tickets && r.nextTicketId == db.nextTicketId
    ensures FirstPending(r.orders, user).Some?
    ensures FirstPending(db.orders, user).Some? ==>
      FirstPending(r.orders, user).value == FirstPending(db.orders, user).value.(totalPrice :=
        FirstPending(db.orders, user).value.totalPrice + price)
    ensures FirstPending(db.orders, user).None? ==>
      FirstPending(r.orders, user).value == Order(db.nextOrderId, Pending, price, user)
  {
    match FirstPending(db.orders, user)
    case None =>
      var created := Order(db.nextOrderId, Pending, price, user);
      var orders' := db.orders + [created];
      assert orders'[|db.orders|] == created;
      db.(orders := orders', nextOrderId := db.nextOrderId + 1)
    case Some(o) =>
      // `update ... set total_price = ... where id = o.id`
      var orders' := seq(|db.orders|, i requires 0 <= i < |db.orders| =>
        if db.orders[i].id == o.id then db.orders[i].(totalPrice := o.totalPrice + price) else db.orders[i]);
      FirstIndexPointwise(db.orders, IsPendingOf(user), orders', IsPendingOf(user));
      db.(orders := orders')
  }

  /** The ticket row as written by the insert. */
  function TicketRow(id: nat, v: ValidTicket, order: nat): Ticket {
    Ticket(id, v.price, v.request.seatNumber, v.request.arrivalPoint, v.request.carriage, v.request.departurePoint, order)
  }

  /** The columns the created ticket is read back by: every one but `id`. */
  predicate SameColumns(a: Ticket, b: Ticket) {
    a.(id := b.id) == b
  }

  /** `TicketSerializer.create`: charge the price to the pending order,
      insert the ticket pointing at that order, and read it back. */
  function CreateTicket(db: Db, user: nat, v: ValidTicket): (r: (Db, Ticket))
    ensures FirstPending(db.orders, user).None? ==>
      && r.0.orders == db.orders + [Order(db.nextOrderId, Pending, v.price, user)]
      && r.0.nextOrderId == db.nextOrderId + 1
      && r.1.order == db.nextOrderId
    ensures FirstPending(db.orders, user).Some? ==>
      var o := FirstPending(db.orders, user).value;
      && r.0.nextOrderId == db.nextOrderId
      && r.1.order == o.id
      && |r.0.orders| == |db.orders|
      && (forall i :: 0 <= i < |db.orders| && db.orders[i].id != o.id ==> r.0.orders[i] == db.orders[i])
      && (forall i :: 0 <= i < |db.orders| && db.orders[i].id == o.id ==>
            r.0.orders[i] == db.orders[i].(totalPrice := o.totalPrice + v.price))
    ensures FirstPending(r.0.orders, user).Some?
    ensures FirstPending(db.orders, user).None? ==>
      FirstPending(r.0.orders, user).value == Order(db.nextOrderId, Pending, v.price, user)
    ensures FirstPending(db.orders, user).Some? ==>
      var o := FirstPending(db.orders, user).value;
      FirstPending(r.0.orders, user).value == o.(totalPrice := o.totalPrice + v.price)
    ensures r.1.order == FirstPending(r.0.orders, user).value.id
    ensures r.0.tickets == db.tickets + [TicketRow(db.nextTicketId, v, r.1.order)]
    ensures SameColumns(r.1, TicketRow(db.nextTicketId, v, r.1.order))
    ensures r.0 == db.(orders := r.0.orders, tickets := r.0.tickets,
                       nextOrderId := r.0.nextOrderId, nextTicketId := db.nextTicketId + 1)
  {
    var charged := ChargePending(db, user, v.price);
    var order := FirstPending(charged.orders, user).value;
    var row := TicketRow(charged.nextTicketId, v, order.id);
    var tickets' := charged.tickets + [row];
    var db' := charged.(tickets := tickets', nextTicketId := charged.nextTicketId + 1);
    var p := (t: Ticket) => SameColumns(t, row);
    assert p(tickets'[|tickets'| - 1]);
    var read := First(tickets', p).value;
    (db', read)
  }

  /** A ticket purchase: validation, then creation. */
  function Purchase(db: Db, user: nat, req: TicketRequest): (r: Result<(Db, Ticket)>)
    ensures r.Ok? <==> ValidateTicket(db, req).Ok?
    ensures r.Err? ==> r == Err(ValidateTicket(db, req).error)
    ensures r.Ok? ==> r.value == CreateTicket(db, user, ValidateTicket(db, req).value)
  {
    var v :- ValidateTicket(db, req);
    Ok(CreateTicket(db, user, v))
  }

  /** Sum of the prices of the tickets that point at order `id`. */
  function TicketTotal(tickets: seq<Ticket>, id: nat): int {
    if |tickets| == 0 then 0
    else
      var t := tickets[|tickets| - 1];
      TicketTotal(tickets[..|tickets| - 1], id) + (if t.order == id then t.price else 0)
  }

  /** Every order and every ticket's order reference is below the next
      order id, and every order's total is the sum of the prices of the
      tickets pointing at it. */
  ghost predicate Ledger(db: Db) {
    && (forall o :: o in db.orders ==> o.id < db.nextOrderId)
    && (forall t :: t in db.tickets ==> t.order < db.nextOrderId)
    && (forall o :: o in db.orders ==> o.totalPrice == TicketTotal(db.tickets, o.id))
  }

  lemma {:induction false} TicketTotalUnused(tickets: seq<Ticket>, id: nat)
    requires forall t :: t in tickets ==> t.order != id
    ensures TicketTotal(tickets, id) == 0
  {
    if |tickets| > 0 {
      TicketTotalUnused(tickets[..|tickets| - 1], id);
    }
  }

  lemma TicketTotalAppend(tickets: seq<Ticket>, t: Ticket, id: nat)
    ensures TicketTotal(tickets + [t], id) == TicketTotal(tickets, id) + (if t.order == id then t.price else 0)
  {
    assert (tickets + [t])[..|tickets|] == tickets;
  }

  /** Creating a ticket keeps every order total equal to the sum of the
      prices of the tickets attached to it. */
  lemma CreateTicketKeepsLedger(db: Db, user: nat, v: ValidTicket)
    requires Ledger(db)
    ensures Ledger(CreateTicket(db, user, v).0)
  {
    var r := CreateTicket(db, user, v);
    var row := TicketRow(db.nextTicketId, v, r.1.order);
    assert r.0.tickets == db.tickets + [row];
    if FirstPending(db.orders, user).None? {
      LedgerAfterNewOrder(db, r.0, row, user);
    } else {
      LedgerAfterCharge(db, r.0, row, FirstPending(db.orders, user).value);
    }
  }

  lemma LedgerAfterNewOrder(db: Db, db': Db, row: Ticket, user: nat)
    requires Ledger(db)
    requires row.order == db.nextOrderId
    requires db'.orders == db.orders + [Order(db.nextOrderId, Pending, row.price, user)]
    requires db'.nextOrderId == db.nextOrderId + 1
    requires db'.tickets == db.tickets + [row]
    ensures Ledger(db')
  {
    forall i | 0 <= i < |db'.orders|
      ensures db'.orders[i].totalPrice == TicketTotal(db'.tickets, db'.orders[i].id)
    {
      var o := db'.orders[i];
      TicketTotalAppend(db.tickets, row, o.id);
      if i == |db.orders| {
        TicketTotalUnused(db.tickets, o.id);
      } else {
        assert o in db.orders;
      }
    }
  }

  lemma LedgerAfterCharge(db: Db, db': Db, row: Ticket, o: Order)
    requires Ledger(db)
    requires o in db.orders
    requires row.order == o.id
    requires db'.nextOrderId == db.nextOrderId
    requires |db'.orders| == |db.orders|
    requires forall i :: 0 <= i < |db.orders| && db.orders[i].id != o.id ==> db'.orders[i] == db.orders[i]
    requires forall i :: 0 <= i < |db.orders| && db.orders[i].id == o.id ==>
               db'.orders[i].id == o.id && db'.orders[i].totalPrice == o.totalPrice + row.price
    requires db'.tickets == db.tickets + [row]
    ensures Ledger(db')
  {
    forall i | 0 <= i < |db'.orders|
      ensures db'.orders[i].id < db'.nextOrderId
      ensures db'.orders[i].totalPrice == TicketTotal(db'.tickets, db'.orders[i].id)
    {
      TicketTotalAppend(db.tickets, row, db'.orders[i].id);
      assert db.orders[i] in db.orders;
    }
  }

  /** A purchase leaves its buyer with exactly one pending order when there
      was at most one before, and leaves every other user's pending orders
      as many as they were. */
  lemma PurchaseKeepsOnePending(db: Db, user: nat, req: TicketRequest, other: nat)
    requires |PendingOf(db.orders, user)| <= 1
    requires other != user
    requires Purchase(db, user, req).Ok?
    ensures |PendingOf(Purchase(db, user, req).value.0.orders, user)| == 1
    ensures |PendingOf(Purchase(db, user, req).value.0.orders, other)| == |PendingOf(db.orders, other)|
  {
    var v := ValidateTicket(db, req).value;
    var orders' := CreateTicket(db, user, v).0.orders;
    assert Purchase(db, user, req).value.0.orders == orders';
    if FirstPending(db.orders, user).None? {
      PendingAfterNewOrder(db.orders, Order(db.nextOrderId, Pending, v.price, user), user, other);
    } else {
      var o := FirstPending(db.orders, user).value;
      PendingAfterCharge(db.orders, orders', o, user, other);
    }
  }

  lemma PendingAfterNewOrder(orders: seq<Order>, created: Order, user: nat, other: nat)
    requires FirstPending(orders, user).None?
    requires created.status == Pending && created.user == user && other != user
    ensures |PendingOf(orders + [created], user)| == 1
    ensures |PendingOf(orders + [created], other)| == |PendingOf(orders, other)|
  {
    FilterAppend(orders, created, IsPendingOf(user));
    FilterAppend(orders, created, IsPendingOf(other));
    FilterNoMatch(orders, IsPendingOf(user));
  }

  lemma PendingAfterCharge(orders: seq<Order>, orders': seq<Order>, o: Order, user: nat, other: nat)
    requires |PendingOf(orders, user)| <= 1
    requires o in orders && o.status == Pending && o.user == user
    requires |orders'| == |orders|
    requires forall i :: 0 <= i < |orders| ==>
      orders'[i] == orders[i] || orders'[i] == orders[i].(totalPrice := orders'[i].totalPrice)
    ensures |PendingOf(orders', user)| == 1
    ensures |PendingOf(orders', other)| == |PendingOf(orders, other)|
  {
    FilterLengthPointwise(orders, IsPendingOf(user), orders', IsPendingOf(user));
    FilterLengthPointwise(orders, IsPendingOf(other), orders', IsPendingOf(other));
    assert o in PendingOf(orders, user);
  }

  /** A user without a pending order buys a ticket for 10, then one for 5:
      one pending order is created, and it totals 15. */
  lemma TwoPurchasesShareOneOrder(db: Db, user: nat, v1: ValidTicket, v2: ValidTicket)
    requires FirstPending(db.orders, user).None?
    requires v1.price == 10 && v2.price == 5
    ensures var db1 := CreateTicket(db, user, v1).0;
            var db2 := CreateTicket(db1, user, v2).0;
            && |db2.orders| == |db.orders| + 1
            && FirstPending(db2.orders, user).value == Order(db.nextOrderId, Pending, 15, user)
  {
  }

  function HasStatus(s: OrderStatus): Order -> bool {
    (o: Order) => o.status == s
  }

  /** The `status_orders` action: an unknown status is a bad request;
      otherwise every order with that status, whoever placed it. */
  function StatusOrders(db: Db, status: string): (r: Result<seq<Order>>)
    ensures r.Err? <==> status !in {"fail", "success", "pending"}
    ensures r.Err? ==> r.error == BadRequest(NoSuchStatus)
    ensures r.Ok? ==> forall o :: o in r.value <==> o in db.orders && StatusName(o.status) == status
  {
    match ParseStatus(status)
    case None => Err(BadRequest(NoSuchStatus))
    case Some(s) => Ok(Filter(db.orders, HasStatus(s)))
  }

  /** Each order answers exactly one of the three status queries: their
      answers together are as many as the order table's rows. */
  lemma StatusQueriesPartitionOrders(db: Db)
    ensures |StatusOrders(db, "fail").value| + |StatusOrders(db, "success").value|
            + |StatusOrders(db, "pending").value| == |db.orders|
  {
    StatusFiltersPartition(db.orders);
  }

  lemma {:induction false} StatusFiltersPartition(orders: seq<Order>)
    ensures |Filter(orders, HasStatus(Fail))| + |Filter(orders, HasStatus(Success))|
            + |Filter(orders, HasStatus(Pending))| == |orders|
  {
    if |orders| > 0 {
      var init := orders[..|orders| - 1];
      var last := orders[|orders| - 1];
      assert orders == init + [last];
      StatusFiltersPartition(init);
      FilterAppend(init, last, HasStatus(Fail));
      FilterAppend(init, last, HasStatus(Success));
      FilterAppend(init, last, HasStatus(Pending));
    }
  }

  /** After a purchase its seat is no longer listed as available, and the
      same request is refused as unavailable. */
  lemma PurchaseTakesSeat(db: Db, user: nat, req: TicketRequest)
    requires Purchase(db, user, req).Ok?
    ensures var db' := Purchase(db, user, req).value.0;
            && AvailableSeats(db', req.carriage).Ok?
            && req.seatNumber !in AvailableSeats(db', req.carriage).value
            && ValidateTicket(db', req) == Err(FieldError(SeatNumber, SeatNotAvailable))
  {
    var v := ValidateTicket(db, req).value;
    var (db', t) := CreateTicket(db, user, v);
    var row := TicketRow(db.nextTicketId, v, t.order);
    assert row in db'.tickets;
    assert SeatHeld(db'.tickets, req.carriage, req.seatNumber);
    assert SeatTaken(db', req);
  }
}

=== FILE: outcomes.dfy ===
/** Outcomes of the booking operations: a value, or the error the web layer
    would surface. The source signals failure in five ways, and each has its
    own constructor here. */
module Outcomes {

  /** The request fields that carry per-field validation errors. */
  datatype Field =
    | SeatNumber
    | ArrivalPointField
    | DepartureCity
    | ArrivalCity
    | SeatAmount
    | DiscountTypeName
    | DiscountPercent
    | DiscountLimit
    | Email
    | Username
    | FirstName
    | LastName
    | Password

  /** The tables whose rows are fetched with a first-row lookup. */
  datatype Table = Carriages | Stops | Points | Cities | Routes

  datatype Error =
    /** A serializer `ValidationError` keyed by the offending field. */
    | FieldError(field: Field, message: string)
    /** Indexing the first row of an empty result, or `objects.get` of a
        missing primary key: an uncaught exception, not a validation error. */
    | LookupError(table: Table)
    /** An explicit HTTP 400 response built by a view. */
    | BadRequest(message: string)
    /** A model-level `ValidationError` raised from `save`. */
    | ModelError(message: string)
    /** A Python `TypeError` (arithmetic on a missing value). */
    | TypeMismatch

  datatype Option<+T> = None | Some(value: T)

  datatype Result<+T> = Ok(value: T) | Err(error: Error) {
    predicate IsFailure() {
      Err?
    }

    function PropagateFailure<U>(): Result<U>
      requires Err?
    {
      Err(error)
    }

    function Extract(): T
      requires Ok?
    {
      value
    }
  }

  const Required := "This field is required."
}

=== FILE: records.dfy ===
/** The records of the `tickets` app and the database value that holds them.
    Prices are integer minor units; times are integer seconds; identifiers
    are the integer primary keys (foreign keys are plain integer columns in
    the source's models). */
module Records {
  import opened Outcomes
  import opened Lookup

  /** `city` is a plain integer column holding a city id; nothing keeps
      the city row from being deleted while the point still names it. */
  datatype ArrivalPoint = ArrivalPoint(id: nat, place: string, city: nat)

  datatype City = City(id: nat, name: string)

  /** `departurePoint` is the column the source calls `departure_city`: it
      holds an arrival-point id, not a city id. */
  datatype Route = Route(id: nat, departureTime: int, departurePoint: nat)

  /** A row of the route-to-arrival-point table: the `order`-th stop of
      `route`, with the cumulative fare from the route's origin. */
  datatype Stop = Stop(order: int, price: int, arrivalTime: int, arrivalPoint: nat, route: nat)

  datatype Carriage = Carriage(id: nat, seatAmount: int, carriageType: nat, route: nat)

  datatype Ticket = Ticket(
    id: nat, price: int, seatNumber: int, arrivalPoint: nat,
    carriage: nat, departurePoint: nat, order: nat)

  datatype OrderStatus = Fail | Success | Pending

  datatype Order = Order(id: nat, status: OrderStatus, totalPrice: int, user: nat)

  /** The whole persisted state. Each `next...Id` is the value the table's
      autoincrement key hands out to the next inserted row. */
  datatype Db = Db(
    points: seq<ArrivalPoint>,
    cities: seq<City>,
    routes: seq<Route>,
    stops: seq<Stop>,
    carriages: seq<Carriage>,
    tickets: seq<Ticket>,
    orders: seq<Order>,
    nextRouteId: nat,
    nextTicketId: nat,
    nextOrderId: nat)

  /** The choice keys of `Order.STATUS_CHOICES`, in declaration order. */
  function StatusName(s: OrderStatus): string {
    match s
    case Fail => "fail"
    case Success => "success"
    case Pending => "pending"
  }

  function ParseStatus(s: string): (r: Option<OrderStatus>)
    ensures r.Some? ==> StatusName(r.value) == s
    ensures r.None? ==> s !in {"fail", "success", "pending"}
  {
    if s == "fail" then Some(Fail)
    else if s == "success" then Some(Success)
    else if s == "pending" then Some(Pending)
    else None
  }

  lemma StatusNameRoundTrip(s: OrderStatus)
    ensures ParseStatus(StatusName(s)) == Some(s)
  {
  }

  function PointRow(db: Db, id: nat): Option<ArrivalPoint> {
    First(db.points, (p: ArrivalPoint) => p.id == id)
  }

  function CityRow(db: Db, id: nat): Option<City> {
    First(db.cities, (c: City) => c.id == id)
  }

  function CarriageRow(db: Db, id: nat): Option<Carriage> {
    First(db.carriages, (c: Carriage) => c.id == id)
  }

  function RouteRow(db: Db, id: nat): Option<Route> {
    First(db.routes, (r: Route) => r.id == id)
  }

  /** The first stop of route `route` at arrival point `point`. */
  function StopRow(db: Db, point: nat, route: nat): Option<Stop> {
    First(db.stops, (s: Stop) => s.arrivalPoint == point && s.route == route)
  }

  /** Number of stop rows of a route (`filter(route=...).count()`). */
  function StopCount(stops: seq<Stop>, route: nat): (n: nat)
    ensures n <= |stops|
  {
    if |stops| == 0 then 0
    else StopCount(stops[..|stops| - 1], route) + (if stops[|stops| - 1].route == route then 1 else 0)
  }

  /** The stop rows of a route, in table order. */
  function StopsOf(stops: seq<Stop>, route: nat): seq<Stop> {
    Filter(stops, (s: Stop) => s.route == route)
  }

  lemma {:induction false} StopCountIsStopsOfLength(stops: seq<Stop>, route: nat)
    ensures StopCount(stops, route) == |StopsOf(stops, route)|
  {
    if |stops| > 0 {
      var init := stops[..|stops| - 1];
      StopCountIsStopsOfLength(init, route);
      assert init + [stops[|stops| - 1]] == stops;
      FilterAppend(init, stops[|stops| - 1], (s: Stop) => s.route == route);
    }
  }

  /** The tickets of a carriage, in table order. */
  function TicketsOf(tickets: seq<Ticket>, carriage: nat): seq<Ticket> {
    Filter(tickets, (t: Ticket) => t.carriage == carriage)
  }
}

=== FILE: route_builder.dfy ===
/** Route creation: the route serializer resolves the referenced arrival
    points, then inserts the route and one stop per requested point,
    numbered by position. Stop prices and times are stored as given. */
module RouteBuilder {
  import opened Outcomes
  import opened Lookup
  import opened Records

  datatype StopRequest = StopRequest(arrivalPoint: nat, price: int, arrivalTime: int)

  datatype RouteRequest = RouteRequest(departurePoint: nat, departureTime: int, stops: seq<StopRequest>)

  /** Every requested stop names an existing arrival point. */
  predicate StopPointsExist(db: Db, stops: seq<StopRequest>) {
    forall i :: 0 <= i < |stops| ==> PointRow(db, stops[i].arrivalPoint).Some?
  }

  /** `RouteSerializer.to_internal_value`: each nested stop's arrival point is
      fetched first, then the departure point when it is non-zero; a missing
      row fails the lookup. Nothing else is checked. */
  function ValidateRoute(db: Db, req: RouteRequest): (r: Result<RouteRequest>)
    ensures r.Ok? <==> StopPointsExist(db, req.stops) && (req.departurePoint != 0 ==> PointRow(db, req.departurePoint).Some?)
    ensures r.Ok? ==> r.value == req
    ensures r.Err? ==> r.error == LookupError(Points)
  {
    if !StopPointsExist(db, req.stops) then Err(LookupError(Points))
    else if req.departurePoint != 0 && PointRow(db, req.departurePoint).None? then Err(LookupError(Points))
    else Ok(req)
  }

  /** The stop rows for `stops` on route `route`, numbered from 1. */
  function NumberStops(stops: seq<StopRequest>, route: nat): (r: seq<Stop>)
    ensures |r| == |stops|
    ensures forall i :: 0 <= i < |stops| ==> r[i].order == i + 1 && r[i].route == route
    ensures forall i :: 0 <= i < |stops| ==>
      && r[i].arrivalPoint == stops[i].arrivalPoint
      && r[i].price == stops[i].price
      && r[i].arrivalTime == stops[i].arrivalTime
  {
    if |stops| == 0 then []
    else
      var init := stops[..|stops| - 1];
      var last := stops[|stops| - 1];
      NumberStops(init, route) + [Stop(|stops|, last.price, last.arrivalTime, last.arrivalPoint, route)]
  }

  /** `RouteSerializer.create`: insert the route under the next route id,
      then one stop row per requested stop in request order. */
  function CreateRoute(db: Db, req: RouteRequest): (r: (Db, Route))
    ensures r.1 == Route(db.nextRouteId, req.departureTime, req.departurePoint)
    ensures r.0.routes == db.routes + [r.1] && r.0.nextRouteId == db.nextRouteId + 1
    ensures |r.0.stops| == |db.stops| + |req.stops|
    ensures r.0.stops[..|db.stops|] == db.stops
    ensures forall i :: 0 <= i < |req.stops| ==>
      r.0.stops[|db.stops| + i] == Stop(i + 1, req.stops[i].price, req.stops[i].arrivalTime, req.stops[i].arrivalPoint, r.1.id)
    ensures r.0 == db.(routes := r.0.routes, stops := r.0.stops, nextRouteId := db.nextRouteId + 1)
  {
    var route := Route(db.nextRouteId, req.departureTime, req.departurePoint);
    var stops' := db.stops + NumberStops(req.stops, route.id);
    (db.(routes := db.routes + [route], stops := stops', nextRouteId := db.nextRouteId + 1), route)
  }

  /** No stop row points at an id the route table has not handed out. */
  ghost predicate RouteIdsFresh(db: Db) {
    forall s :: s in db.stops ==> s.route < db.nextRouteId
  }

  /** The created route's stops are exactly the requested ones, in request
      order, numbered 1..N; so its stop count is N and the stop numbered N,
      the one a search will not depart from, is the last requested. */
  lemma CreatedRouteStops(db: Db, req: RouteRequest)
    requires RouteIdsFresh(db)
    ensures var (db', route) := CreateRoute(db, req);
            && StopsOf(db'.stops, route.id) == NumberStops(req.stops, route.id)
            && StopCount(db'.stops, route.id) == |req.stops|
            && RouteIdsFresh(db')
  {
    var (db', route) := CreateRoute(db, req);
    var p := (s: Stop) => s.route == route.id;
    var added := NumberStops(req.stops, route.id);
    assert db'.stops == db.stops + added;
    FilterConcat(db.stops, added, p);
    FilterNoMatch(db.stops, p);
    FilterAll(added, p);
    StopCountIsStopsOfLength(db'.stops, route.id);
  }

  /** Creation accepts any fares and times: whether a request is accepted
      depends only on the points it names. */
  lemma FaresAndTimesNotValidated(db: Db, req: RouteRequest, fares: seq<int>, times: seq<int>, departureTime: int)
    requires |fares| == |req.stops| && |times| == |req.stops|
    ensures var req' := RouteRequest(req.departurePoint, departureTime,
              seq(|req.stops|, i requires 0 <= i < |req.stops| => StopRequest(req.stops[i].arrivalPoint, fares[i], times[i])));
            ValidateRoute(db, req').Ok? == ValidateRoute(db, req).Ok?
  {
    var req' := RouteRequest(req.departurePoint, departureTime,
      seq(|req.stops|, i requires 0 <= i < |req.stops| => StopRequest(req.stops[i].arrivalPoint, fares[i], times[i])));
    assert forall i :: 0 <= i < |req.stops| ==> req'.stops[i].arrivalPoint == req.stops[i].arrivalPoint;
  }
}

=== FILE: route_search.dfy ===
/** Route search: the routes a rider can board at a point, narrowed by
    travel day and destination, without routes that left before today. */
module RouteSearch {
  import opened Outcomes
  import opened Lookup
  import opened Records
  import opened RouteBuilder
  import opened Seats

  const SecondsPerDay := 86400
  const PointMissing := "Arrival point does not exist"

  /** Calendar day number of a timestamp in seconds (floor division). */
  function DateOf(t: int): int {
    t / SecondsPerDay
  }

  /** `departure_city` is required; `arrival_city` and `departure_day` are
      optional. Points are arrival-point ids; the day is a day number. */
  datatype SearchRequest = SearchRequest(departure: Option<nat>, arrival: Option<nat>, day: Option<int>)

  predicate DepartsFrom(r: Route, point: nat) {
    r.departurePoint == point
  }

  /** The route stops at `point` and that stop is not its final one. */
  predicate BoardsAt(db: Db, r: Route, point: nat) {
    exists s | s in db.stops :: s.route == r.id && s.arrivalPoint == point && s.order != StopCount(db.stops, r.id)
  }

  /** The route departs, or reaches one of its stops, on `day`. */
  predicate RunsOn(db: Db, r: Route, day: int) {
    DateOf(r.departureTime) == day || exists s | s in db.stops :: s.route == r.id && DateOf(s.arrivalTime) == day
  }

  /** The route has a stop at `point`. */
  predicate Reaches(db: Db, r: Route, point: nat) {
    exists s | s in db.stops :: s.route == r.id && s.arrivalPoint == point
  }

  /** What a found route satisfies, filter by filter. */
  predicate Matches(db: Db, q: SearchRequest, today: int, r: Route)
    requires q.departure.Some?
  {
    && (DepartsFrom(r, q.departure.value) || BoardsAt(db, r, q.departure.value))
    && (q.day.Some? ==> RunsOn(db, r, q.day.value))
    && (q.arrival.Some? ==> Reaches(db, r, q.arrival.value))
    && DateOf(r.departureTime) >= today
  }

  /** The routes departing from `point`. */
  function DepartingRoutes(routes: seq<Route>, point: nat): (found: set<Route>)
    ensures forall r :: r in found <==> r in routes && DepartsFrom(r, point)
  {
    if |routes| == 0 then {}
    else
      var last := routes[|routes| - 1];
      assert routes == routes[..|routes| - 1] + [last];
      DepartingRoutes(routes[..|routes| - 1], point) + (if DepartsFrom(last, point) then {last} else {})
  }

  /** The union over `stops` of the routes whose non-final stop is at
      `point`, one stop at a time as the search loop adds them. */
  function BoardingRoutes(db: Db, stops: seq<Stop>, point: nat): (found: set<Route>)
    ensures forall r :: r in found <==>
      (r in db.routes && exists s :: s in stops && s.route == r.id && s.arrivalPoint == point && s.order != StopCount(db.stops, r.id))
  {
    if |stops| == 0 then {}
    else
      var last := stops[|stops| - 1];
      assert stops == stops[..|stops| - 1] + [last];
      var added := if last.arrivalPoint == point && last.order != StopCount(db.stops, last.route)
                   then set r | r in db.routes && r.id == last.route
                   else {};
      BoardingRoutes(db, stops[..|stops| - 1], point) + added
  }

  /** The routes `SearchRouteSerializer.to_internal_value` selects, after
      the field validators have checked the points. */
  function FoundRoutes(db: Db, q: SearchRequest, today: int): (r: Result<set<Route>>)
    ensures q.departure.None? ==> r == Err(FieldError(DepartureCity, Required))
    ensures q.departure.Some? && PointRow(db, q.departure.value).None? ==>
      r == Err(FieldError(DepartureCity, PointMissing))
    ensures q.departure.Some? && PointRow(db, q.departure.value).Some?
            && q.arrival.Some? && PointRow(db, q.arrival.value).None? ==>
      r == Err(FieldError(ArrivalCity, PointMissing))
    ensures r.Ok? <==> q.departure.Some? && PointRow(db, q.departure.value).Some?
                       && (q.arrival.Some? ==> PointRow(db, q.arrival.value).Some?)
    ensures r.Ok? ==> forall x :: x in r.value <==> x in db.routes && Matches(db, q, today, x)
  {
    if q.departure.None? then Err(FieldError(DepartureCity, Required))
    else if PointRow(db, q.departure.value).None? then Err(FieldError(DepartureCity, PointMissing))
    else if q.arrival.Some? && PointRow(db, q.arrival.value).None? then Err(FieldError(ArrivalCity, PointMissing))
    else
      var point := q.departure.value;
      var candidates := DepartingRoutes(db.routes, point) + BoardingRoutes(db, db.stops, point);
      var onDay := if q.day.Some? then set x | x in candidates && RunsOn(db, x, q.day.value) else candidates;
      var toArrival := if q.arrival.Some? then set x | x in onDay && Reaches(db, x, q.arrival.value) else onDay;
      Ok(set x | x in toArrival && DateOf(x.departureTime) >= today)
  }

  /** A route met at `point` only as its final stop is never offered. */
  lemma FinalStopNotBoarded(db: Db, q: SearchRequest, today: int, r: Route)
    requires q.departure.Some? && FoundRoutes(db, q, today).Ok?
    requires !DepartsFrom(r, q.departure.value)
    requires forall s :: s in db.stops && s.route == r.id && s.arrivalPoint == q.departure.value
               ==> s.order == StopCount(db.stops, r.id)
    ensures r !in FoundRoutes(db, q, today).value
  {
  }

  /** Giving a day only removes routes. */
  lemma DayFilterNarrows(db: Db, q: SearchRequest, today: int, day: int)
    requires FoundRoutes(db, q.(day := None), today).Ok?
    ensures FoundRoutes(db, q.(day := Some(day)), today).Ok?
    ensures FoundRoutes(db, q.(day := Some(day)), today).value <= FoundRoutes(db, q.(day := None), today).value
  {
  }

  /** Giving an existing arrival point only removes routes. */
  lemma ArrivalFilterNarrows(db: Db, q: SearchRequest, today: int, arrival: nat)
    requires FoundRoutes(db, q.(arrival := None), today).Ok?
    requires PointRow(db, arrival).Some?
    ensures FoundRoutes(db, q.(arrival := Some(arrival)), today).Ok?
    ensures FoundRoutes(db, q.(arrival := Some(arrival)), today).value <= FoundRoutes(db, q.(arrival := None), today).value
  {
  }

  /** A later `today` only removes routes. */
  lemma LaterTodayNarrows(db: Db, q: SearchRequest, today: int, later: int)
    requires today <= later && FoundRoutes(db, q, today).Ok?
    ensures FoundRoutes(db, q, later).value <= FoundRoutes(db, q, today).value
  {
  }

  /** A newly created route that has not left before today is found by a
      search from its departure point. */
  lemma CreatedRouteFoundFromOrigin(db: Db, req: RouteRequest, today: int)
    requires PointRow(db, req.departurePoint).Some?
    requires DateOf(req.departureTime) >= today
    ensures var (db', route) := CreateRoute(db, req);
            var found := FoundRoutes(db', SearchRequest(Some(req.departurePoint), None, None), today);
            found.Ok? && route in found.value
  {
    var (db', route) := CreateRoute(db, req);
    assert route in db'.routes;
  }

  /** `SearchRouteSerializer.to_internal_value` as a whole: the found routes
      are returned through the route representation, so a found route
      whose representation fails a lookup fails the search. When several
      do, the first in table order is reported. */
  function Search(db: Db, q: SearchRequest, today: int): (r: Result<set<Route>>)
    ensures FoundRoutes(db, q, today).Err? ==> r == FoundRoutes(db, q, today)
    ensures FoundRoutes(db, q, today).Ok? ==>
      (r.Err? <==> exists x :: x in FoundRoutes(db, q, today).value && RouteCarriages(db, x).Err?)
    ensures FoundRoutes(db, q, today).Ok? && r.Err? ==>
      exists x :: x in FoundRoutes(db, q, today).value && RouteCarriages(db, x) == Err(r.error)
    ensures r.Ok? ==> r == FoundRoutes(db, q, today)
  {
    var found :- FoundRoutes(db, q, today);
    match First(db.routes, (x: Route) => x in found && RouteCarriages(db, x).Err?)
    case Some(x) => Err(RouteCarriages(db, x).error)
    case None => Ok(found)
  }

  /** A route created from a validated request with at least one stop,
      whose stop points and departure point can all be represented (each
      names a city that has a row), can be represented, so a search that
      finds it does not fail on it. */
  lemma CreatedRouteRepresents(db: Db, req: RouteRequest)
    requires ValidateRoute(db, req).Ok? && |req.stops| > 0
    requires forall i :: 0 <= i < |req.stops| ==> PointShown(db, req.stops[i].arrivalPoint).Ok?
    requires PointShown(db, req.departurePoint).Ok?
    requires RouteIdsFresh(db)
    ensures var (db', route) := CreateRoute(db, req);
            RouteCarriages(db', route).Ok?
  {
    var (db', route) := CreateRoute(db, req);
    CreatedRouteStops(db, req);
    var numbered := NumberStops(req.stops, route.id);
    forall s | s in StopsOf(db'.stops, route.id)
      ensures PointShown(db', s.arrivalPoint).Ok?
    {
      var i :| 0 <= i < |numbered| && numbered[i] == s;
      assert PointShown(db, req.stops[i].arrivalPoint).Ok?;
    }
    assert !StopPointUnshown(db', route);
    assert PointShown(db', route.departurePoint).Ok?;
  }

  /** A route from point 5 on a database with no stops is found, yet the
      search fails: the representation's fare lookup finds no stop row. */
  lemma SearchFailsOnEmptyStopTable()
    ensures var route := Route(1, 864000, 5);
            var db := Db([ArrivalPoint(5, "Central", 1)], [City(1, "Lviv")], [route], [], [], [], [], 2, 1, 1);
            var q := SearchRequest(Some(5), None, None);
            && FoundRoutes(db, q, 10) == Ok({route})
            && Search(db, q, 10) == Err(LookupError(Stops))
  {
    var route := Route(1, 864000, 5);
    var db := Db([ArrivalPoint(5, "Central", 1)], [City(1, "Lviv")], [route], [], [], [], [], 2, 1, 1);
    var q := SearchRequest(Some(5), None, None);
    assert PointRow(db, 5) == Some(db.points[0]);
    assert CityRow(db, 1) == Some(db.cities[0]);
    assert route in FoundRoutes(db, q, 10).value;
    assert RouteCarriages(db, route) == Err(LookupError(Stops));
    assert FoundRoutes(db, q, 10).value == {route};
    var found := FoundRoutes(db, q, 10).value;
    assert First(db.routes, (x: Route) => x in found && RouteCarriages(db, x).Err?) == Some(route);
  }
}

=== FILE: seats.dfy ===
/** Seat availability: which seats of a carriage are free, the per-route
    free-seat count, and the seat-amount cap of the carriage serializers. */
module Seats {
  import opened Outcomes
  import opened Lookup
  import opened Records

  const MaxSeatAmount := 100
  const MaxSeatMessage := "Max seat amount is 100"

  /** Some ticket of `carriage` holds seat `s`. */
  predicate SeatHeld(tickets: seq<Ticket>, carriage: nat, s: int) {
    exists t :: t in tickets && t.carriage == carriage && t.seatNumber == s
  }

  /** The seats `range(1, n + 1)`. */
  function SeatRange(n: int): (all: set<int>)
    ensures forall s :: s in all <==> 1 <= s <= n
  {
    if n <= 0 then {} else SeatRange(n - 1) + {n}
  }

  /** The seat numbers of the tickets of `carriage`, as a set. */
  function TakenSeats(tickets: seq<Ticket>, carriage: nat): (taken: set<int>)
    ensures forall s :: s in taken <==> SeatHeld(tickets, carriage, s)
  {
    if |tickets| == 0 then {}
    else
      var init := tickets[..|tickets| - 1];
      var last := tickets[|tickets| - 1];
      assert tickets == init + [last];
      TakenSeats(init, carriage) + (if last.carriage == carriage then {last.seatNumber} else {})
  }

  /** `set(all_seats) - set(taken_seats)` for one carriage. */
  function FreeSeats(c: Carriage, tickets: seq<Ticket>): (free: set<int>)
    ensures forall s :: s in free <==> 1 <= s <= c.seatAmount && !SeatHeld(tickets, c.id, s)
  {
    SeatRange(c.seatAmount) - TakenSeats(tickets, c.id)
  }

  /** The `available_seats` action of the carriage view: the carriage is
      fetched by primary key (a missing one raises), then its free seats. */
  function AvailableSeats(db: Db, pk: nat): (r: Result<set<int>>)
    ensures r.Err? <==> CarriageRow(db, pk).None?
    ensures r.Err? ==> r.error == LookupError(Carriages)
    ensures r.Ok? ==> forall s :: s in r.value <==>
      1 <= s <= CarriageRow(db, pk).value.seatAmount && !SeatHeld(db.tickets, pk, s)
  {
    match CarriageRow(db, pk)
    case None => Err(LookupError(Carriages))
    case Some(c) => Ok(FreeSeats(c, db.tickets))
  }

  /** The arrival-point representation of point `id`: the point's row is
      fetched, then the name of its city from the city table; either
      fetch takes the first row and fails on an empty result. */
  function PointShown(db: Db, id: nat): (r: Result<(ArrivalPoint, string)>)
    ensures r.Ok? <==> PointRow(db, id).Some? && CityRow(db, PointRow(db, id).value.city).Some?
    ensures r.Err? ==> r.error == (if PointRow(db, id).None? then LookupError(Points) else LookupError(Cities))
    ensures r.Ok? ==> r.value.0 in db.points && r.value.0.id == id
    ensures r.Ok? ==> exists c :: c in db.cities && c.id == r.value.0.city && c.name == r.value.1
  {
    match PointRow(db, id)
    case None => Err(LookupError(Points))
    case Some(p) =>
      match CityRow(db, p.city)
      case None => Err(LookupError(Cities))
      case Some(c) => Ok((p, c.name))
  }

  /** Some stop of the route is at a point that cannot be represented. */
  predicate StopPointUnshown(db: Db, route: Route) {
    exists s | s in StopsOf(db.stops, route.id) :: PointShown(db, s.arrivalPoint).Err?
  }

  /** The carriage summary of the route representation, or the lookup that
      fails while building it. The representation represents the point of
      each of the route's stops in stop-table order, then its departure
      point, then fetches the fare of the highest-numbered stop of the
      whole stop table; each fetch takes the first row. The first failing
      fetch is the one reported. The summary is the route's free-seat
      count, shown only when it is non-zero. */
  function RouteCarriages(db: Db, route: Route): (r: Result<Option<int>>)
    ensures r.Err? <==> StopPointUnshown(db, route) || PointShown(db, route.departurePoint).Err? || |db.stops| == 0
    ensures StopPointUnshown(db, route) ==>
      var stops := StopsOf(db.stops, route.id);
      exists i :: 0 <= i < |stops| && PointShown(db, stops[i].arrivalPoint).Err?
                  && r == Err(PointShown(db, stops[i].arrivalPoint).error)
                  && forall j :: 0 <= j < i ==> PointShown(db, stops[j].arrivalPoint).Ok?
    ensures !StopPointUnshown(db, route) && PointShown(db, route.departurePoint).Err? ==>
      r == Err(PointShown(db, route.departurePoint).error)
    ensures !StopPointUnshown(db, route) && PointShown(db, route.departurePoint).Ok? && |db.stops| == 0 ==>
      r == Err(LookupError(Stops))
    ensures r.Ok? ==> (r.value.None? <==> RouteSeatCount(db.carriages, db.tickets, route.id) == 0)
    ensures r.Ok? && r.value.Some? ==> r.value.value == RouteSeatCount(db.carriages, db.tickets, route.id)
  {
    var stops := StopsOf(db.stops, route.id);
    match First(stops, (s: Stop) => PointShown(db, s.arrivalPoint).Err?)
    case Some(s) => Err(PointShown(db, s.arrivalPoint).error)
    case None =>
      var _ :- PointShown(db, route.departurePoint);
      if |db.stops| == 0 then Err(LookupError(Stops))
      else
        var count := RouteSeatCount(db.carriages, db.tickets, route.id);
        Ok(if count != 0 then Some(count) else None)
  }

  /** The seat list of the carriage-seats representation: the same free
      seats, after the carriage's route row is fetched and represented. */
  function CarriageSeats(db: Db, c: Carriage): (r: Result<set<int>>)
    ensures RouteRow(db, c.route).None? ==> r == Err(LookupError(Routes))
    ensures RouteRow(db, c.route).Some? ==>
      (r.Err? <==> RouteCarriages(db, RouteRow(db, c.route).value).Err?)
    ensures RouteRow(db, c.route).Some? && r.Err? ==> r.error == RouteCarriages(db, RouteRow(db, c.route).value).error
    ensures r.Ok? ==> forall s :: s in r.value <==> 1 <= s <= c.seatAmount && !SeatHeld(db.tickets, c.id, s)
  {
    match RouteRow(db, c.route)
    case None => Err(LookupError(Routes))
    case Some(route) =>
      var _ :- RouteCarriages(db, route);
      Ok(FreeSeats(c, db.tickets))
  }

  /** Free seats and the in-range taken seats split `1..seat_amount`. */
  lemma FreeAndTakenPartitionRange(c: Carriage, tickets: seq<Ticket>)
    ensures FreeSeats(c, tickets) !! TakenSeats(tickets, c.id)
    ensures FreeSeats(c, tickets) + (TakenSeats(tickets, c.id) * SeatRange(c.seatAmount)) == SeatRange(c.seatAmount)
  {
  }

  /** `validate_seat_amount` of both carriage serializers. */
  function ValidateSeatAmount(n: int): (r: Result<int>)
    ensures r.Ok? <==> n <= MaxSeatAmount
    ensures r.Ok? ==> r.value == n
    ensures r.Err? ==> r.error == FieldError(SeatAmount, MaxSeatMessage)
  {
    if n > MaxSeatAmount then Err(FieldError(SeatAmount, MaxSeatMessage)) else Ok(n)
  }

  /** The route representation's `available_seats_amount`: for every
      carriage of the route, its seat amount minus its number of tickets. */
  function RouteSeatCount(carriages: seq<Carriage>, tickets: seq<Ticket>, route: nat): (n: int)
    ensures (forall c | c in carriages :: c.route != route) ==> n == 0
    ensures (forall c | c in carriages && c.route == route :: |TicketsOf(tickets, c.id)| <= c.seatAmount) ==> n >= 0
  {
    if |carriages| == 0 then 0
    else
      var init := carriages[..|carriages| - 1];
      var c := carriages[|carriages| - 1];
      assert carriages == init + [c];
      RouteSeatCount(init, tickets, route)
        + (if c.route == route then c.seatAmount - |TicketsOf(tickets, c.id)| else 0)
  }

  /** The count over two carriage lists together is the sum of their
      counts: carriages contribute independently of their order. */
  lemma {:induction false} RouteSeatCountConcat(a: seq<Carriage>, b: seq<Carriage>, tickets: seq<Ticket>, route: nat)
    ensures RouteSeatCount(a + b, tickets, route) == RouteSeatCount(a, tickets, route) + RouteSeatCount(b, tickets, route)
  {
    if |b| == 0 {
      assert a + b == a;
    } else {
      var init := b[..|b| - 1];
      assert a + b == (a + init) + [b[|b| - 1]];
      assert (a + b)[..|a + b| - 1] == a + init;
      RouteSeatCountConcat(a, init, tickets, route);
    }
  }

  /** Sum of the sizes of the free-seat sets of a route's carriages. */
  ghost function FreeSeatTotal(carriages: seq<Carriage>, tickets: seq<Ticket>, route: nat): int {
    if |carriages| == 0 then 0
    else
      var c := carriages[|carriages| - 1];
      FreeSeatTotal(carriages[..|carriages| - 1], tickets, route)
        + (if c.route == route then |FreeSeats(c, tickets)| else 0)
  }

  /** The tickets of a carriage hold pairwise different seats, each within
      `1..seat_amount`. */
  ghost predicate SeatsConsistent(c: Carriage, tickets: seq<Ticket>) {
    && c.seatAmount >= 0
    && (forall t :: t in tickets && t.carriage == c.id ==> 1 <= t.seatNumber <= c.seatAmount)
    && (forall i, j :: 0 <= i < j < |tickets| && tickets[i].carriage == c.id && tickets[j].carriage == c.id
          ==> tickets[i].seatNumber != tickets[j].seatNumber)
  }

  lemma {:induction false} SeatRangeSize(n: int)
    requires n >= 0
    ensures |SeatRange(n)| == n
  {
    if n > 0 {
      SeatRangeSize(n - 1);
      assert n !in SeatRange(n - 1);
    }
  }

  lemma {:induction false} TakenSeatsSize(tickets: seq<Ticket>, id: nat)
    requires forall i, j :: 0 <= i < j < |tickets| && tickets[i].carriage == id && tickets[j].carriage == id
               ==> tickets[i].seatNumber != tickets[j].seatNumber
    ensures |TakenSeats(tickets, id)| == |TicketsOf(tickets, id)|
  {
    if |tickets| > 0 {
      var init := tickets[..|tickets| - 1];
      var last := tickets[|tickets| - 1];
      assert tickets == init + [last];
      TakenSeatsSize(init, id);
      FilterAppend(init, last, (t: Ticket) => t.carriage == id);
      if last.carriage == id {
        assert last.seatNumber !in TakenSeats(init, id);
      }
    }
  }

  /** With consistent seat data, seat amount minus ticket count is exactly
      the number of free seats of the carriage. */
  lemma FreeSeatsSize(c: Carriage, tickets: seq<Ticket>)
    requires SeatsConsistent(c, tickets)
    ensures |FreeSeats(c, tickets)| == c.seatAmount - |TicketsOf(tickets, c.id)|
  {
    var all := SeatRange(c.seatAmount);
    var taken := TakenSeats(tickets, c.id);
    SeatRangeSize(c.seatAmount);
    TakenSeatsSize(tickets, c.id);
    assert taken <= all;
    assert (all - taken) + taken == all;
    assert |all - taken| + |taken| == |all|;
  }

  /** The route's free-seat count equals the total number of free seats of
      its carriages when every carriage's seat data is consistent. */
  lemma {:induction false} RouteSeatCountIsFreeSeatTotal(carriages: seq<Carriage>, tickets: seq<Ticket>, route: nat)
    requires forall c :: c in carriages && c.route == route ==> SeatsConsistent(c, tickets)
    ensures RouteSeatCount(carriages, tickets, route) == FreeSeatTotal(carriages, tickets, route)
  {
    if |carriages| > 0 {
      var c := carriages[|carriages| - 1];
      RouteSeatCountIsFreeSeatTotal(carriages[..|carriages| - 1], tickets, route);
      if c.route == route {
        FreeSeatsSize(c, tickets);
      }
    }
  }

  /** A carriage holds at most as many distinct taken seats as it has
      tickets. */
  lemma {:induction false} TakenSeatsAtMostTickets(tickets: seq<Ticket>, id: nat)
    ensures |TakenSeats(tickets, id)| <= |TicketsOf(tickets, id)|
  {
    if |tickets| > 0 {
      var init := tickets[..|tickets| - 1];
      var last := tickets[|tickets| - 1];
      assert tickets == init + [last];
      TakenSeatsAtMostTickets(init, id);
      FilterAppend(init, last, (t: Ticket) => t.carriage == id);
      if last.carriage == id {
        assert TakenSeats(tickets, id) <= TakenSeats(init, id) + {last.seatNumber};
        assert |TakenSeats(init, id) + {last.seatNumber}| <= |TakenSeats(init, id)| + 1;
      } else {
        assert TakenSeats(tickets, id) == TakenSeats(init, id);
      }
    }
  }

  /** Whatever the seat data, the route count never exceeds the number of
      free seats: out-of-range and repeated seat numbers only lower it. */
  lemma {:induction false} RouteSeatCountAtMostFreeSeatTotal(carriages: seq<Carriage>, tickets: seq<Ticket>, route: nat)
    ensures RouteSeatCount(carriages, tickets, route) <= FreeSeatTotal(carriages, tickets, route)
  {
    if |carriages| > 0 {
      var c := carriages[|carriages| - 1];
      RouteSeatCountAtMostFreeSeatTotal(carriages[..|carriages| - 1], tickets, route);
      if c.route == route && c.seatAmount >= 0 {
        var all := SeatRange(c.seatAmount);
        var taken := TakenSeats(tickets, c.id);
        SeatRangeSize(c.seatAmount);
        TakenSeatsAtMostTickets(tickets, c.id);
        assert (all - taken) + (all * taken) == all;
        assert |all - taken| + |all * taken| == |all|;
        assert all * taken <= taken;
      }
    }
  }

  /** With consistent seat data, the route representation leaves out its
      carriage summary exactly when no seat of the route is free. */
  lemma RouteCarriagesHiddenIffFull(db: Db, route: Route)
    requires RouteCarriages(db, route).Ok?
    requires forall c :: c in db.carriages && c.route == route.id ==> SeatsConsistent(c, db.tickets)
    ensures RouteCarriages(db, route).value.None? <==> FreeSeatTotal(db.carriages, db.tickets, route.id) == 0
  {
    RouteSeatCountIsFreeSeatTotal(db.carriages, db.tickets, route.id);
  }

  /** A ticket on seat 0, which the seat check lets through, lowers the
      route count without holding any seat: a carriage of two seats with
      such a ticket reports 1 free, yet both seats are free. */
  lemma OutOfRangeSeatUndercounts()
    ensures var c := Carriage(1, 2, 1, 1);
            var ts := [Ticket(1, 10, 0, 5, 1, 4, 1)];
            RouteSeatCount([c], ts, 1) == 1 && FreeSeats(c, ts) == {1, 2}
  {
    var c := Carriage(1, 2, 1, 1);
    var ts := [Ticket(1, 10, 0, 5, 1, 4, 1)];
    var p := (x: Ticket) => x.carriage == 1;
    FilterAppend([], ts[0], p);
    assert [] + [ts[0]] == ts;
    assert TicketsOf(ts, 1) == ts;
    assert [c][..0] == [];
    assert SeatHeld(ts, 1, 0);
    assert !SeatHeld(ts, 1, 1) && !SeatHeld(ts, 1, 2);
    assert FreeSeats(c, ts) == {1, 2};
  }

  /** Two tickets sharing a seat make the route count undercount free seats:
      a carriage of two seats whose seat 1 is held twice reports 0 free, yet
      seat 2 is free. */
  lemma DuplicateSeatUndercounts()
    ensures var c := Carriage(1, 2, 1, 1);
            var t := Ticket(1, 10, 1, 5, 1, 4, 1);
            var ts := [t, t.(id := 2, arrivalPoint := 6)];
            RouteSeatCount([c], ts, 1) == 0 && FreeSeats(c, ts) == {2}
  {
    var c := Carriage(1, 2, 1, 1);
    var t := Ticket(1, 10, 1, 5, 1, 4, 1);
    var ts := [t, t.(id := 2, arrivalPoint := 6)];
    var p := (x: Ticket) => x.carriage == 1;
    FilterAppend([], ts[0], p);
    assert [] + [ts[0]] == [ts[0]];
    FilterAppend([ts[0]], ts[1], p);
    assert [ts[0]] + [ts[1]] == ts;
    assert TicketsOf(ts, 1) == ts;
    assert [c][..0] == [];
    assert SeatHeld(ts, 1, 1);
    assert !SeatHeld(ts, 1, 2);
    assert FreeSeats(c, ts) == {2};
  }
}

=== FILE: signup.dfy ===
/** The signup serializer's validated data: optional names default to the
    empty string, the password is stored hashed and new users are never
    staff. The password hasher is a parameter. */
module Signup {
  import opened Outcomes

  const MaxLength := 32
  const TooLong := "Ensure this field has no more than 32 characters."

  datatype SignupInput = SignupInput(
    email: Option<string>, username: Option<string>,
    firstName: Option<string>, lastName: Option<string>,
    password: Option<string>)

  datatype SignupData = SignupData(
    email: string, username: string, firstName: string, lastName: string,
    password: string, isStaff: bool)

  /** A declared field: present when required, at most 32 characters. */
  predicate FieldOk(value: Option<string>, required: bool) {
    (required ==> value.Some?) && (value.Some? ==> |value.value| <= MaxLength)
  }

  function CheckField(value: Option<string>, required: bool, field: Field): (r: Result<Option<string>>)
    ensures r.Ok? <==> FieldOk(value, required)
    ensures r.Ok? ==> r.value == value
    ensures r.Err? ==> r.error.FieldError? && r.error.field == field
  {
    if required && value.None? then Err(FieldError(field, Required))
    else if value.Some? && |value.value| > MaxLength then Err(FieldError(field, TooLong))
    else Ok(value)
  }

  function OrEmpty(value: Option<string>): string {
    if value.Some? then value.value else ""
  }

  /** `SignupUserSerializer.to_internal_value`. The length check applies to
      the password as sent; `validate_password` then replaces it by its
      hash. */
  function SignupToInternal(input: SignupInput, hash: string -> string): (r: Result<SignupData>)
    ensures r.Ok? <==>
      && FieldOk(input.email, true) && FieldOk(input.username, true)
      && FieldOk(input.firstName, false) && FieldOk(input.lastName, false)
      && FieldOk(input.password, true)
    ensures r.Ok? ==> !r.value.isStaff
    ensures r.Ok? ==> r.value.email == input.email.value && r.value.username == input.username.value
    ensures r.Ok? ==> r.value.password == hash(input.password.value)
    ensures r.Ok? ==> (input.firstName.None? ==> r.value.firstName == "")
                      && (input.firstName.Some? ==> r.value.firstName == input.firstName.value)
    ensures r.Ok? ==> (input.lastName.None? ==> r.value.lastName == "")
                      && (input.lastName.Some? ==> r.value.lastName == input.lastName.value)
  {
    var email :- CheckField(input.email, true, Email);
    var username :- CheckField(input.username, true, Username);
    var first :- CheckField(input.firstName, false, FirstName);
    var last :- CheckField(input.lastName, false, LastName);
    var password :- CheckField(input.password, true, Password);
    Ok(SignupData(email.value, username.value, OrEmpty(first), OrEmpty(last), hash(password.value), false))
  }

  /** Sending a user's own data back through signup reproduces it when the
      names are given, except that the password comes back hashed and staff
      status is always cleared. */
  lemma SignupKeepsGivenNames(d: SignupData, hash: string -> string)
    requires |d.email| <= MaxLength && |d.username| <= MaxLength && |d.password| <= MaxLength
    requires |d.firstName| <= MaxLength && |d.lastName| <= MaxLength
    ensures SignupToInternal(SignupInput(Some(d.email), Some(d.username), Some(d.firstName), Some(d.lastName), Some(d.password)), hash)
            == Ok(d.(password := hash(d.password), isStaff := false))
  {
  }
}

=== FILE: ticket_validation.dfy ===
/** Validation of a ticket purchase request and the fare of the travelled
    segment, as the ticket serializer's `to_internal_value` computes them. */
module TicketValidation {
  import opened Outcomes
  import opened Lookup
  import opened Records

  const SeatNotFound := "Seat number is not found in this carriage"
  const SeatNotAvailable := "This seat is not available"
  const InvalidOrder := "Invalid order"

  datatype TicketRequest = TicketRequest(carriage: nat, seatNumber: int, departurePoint: nat, arrivalPoint: nat)

  /** The validated data: the request plus its derived price. */
  datatype ValidTicket = ValidTicket(request: TicketRequest, price: int)

  /** A ticket already exists with the request's arrival point, carriage and
      seat number. Only a match on all three makes the seat unavailable. */
  predicate SeatTaken(db: Db, req: TicketRequest) {
    exists t | t in db.tickets ::
      t.arrivalPoint == req.arrivalPoint && t.carriage == req.carriage && t.seatNumber == req.seatNumber
  }

  /** The fare from `dep` to `arr` on `route`: both points are looked up as
      stops of the route by first-row indexing, so a point that is not a stop
      (the route's own origin included) is a lookup failure. */
  function SegmentFare(db: Db, route: nat, dep: nat, arr: nat): (r: Result<int>)
    ensures r.Ok? <==> StopRow(db, arr, route).Some? && StopRow(db, dep, route).Some?
                       && StopRow(db, dep, route).value.order < StopRow(db, arr, route).value.order
    ensures r.Ok? ==> r.value == StopRow(db, arr, route).value.price - StopRow(db, dep, route).value.price
    ensures (StopRow(db, arr, route).None? || StopRow(db, dep, route).None?) <==> r == Err(LookupError(Stops))
  {
    match StopRow(db, arr, route)
    case None => Err(LookupError(Stops))
    case Some(arrival) =>
      match StopRow(db, dep, route)
      case None => Err(LookupError(Stops))
      case Some(departure) =>
        if departure.order >= arrival.order then Err(FieldError(ArrivalPointField, InvalidOrder))
        else Ok(arrival.price - departure.price)
  }

  /** `TicketSerializer.to_internal_value`. */
  function ValidateTicket(db: Db, req: TicketRequest): (r: Result<ValidTicket>)
    ensures CarriageRow(db, req.carriage).None? <==> r == Err(LookupError(Carriages))
    ensures r.Ok? ==>
      && CarriageRow(db, req.carriage).Some?
      && req.seatNumber <= CarriageRow(db, req.carriage).value.seatAmount
      && !SeatTaken(db, req)
      && r.value.request == req
      && SegmentFare(db, CarriageRow(db, req.carriage).value.route, req.departurePoint, req.arrivalPoint)
         == Ok(r.value.price)
  {
    match CarriageRow(db, req.carriage)
    case None => Err(LookupError(Carriages))
    case Some(car) =>
      if car.seatAmount < req.seatNumber then Err(FieldError(SeatNumber, SeatNotFound))
      else if SeatTaken(db, req) then Err(FieldError(SeatNumber, SeatNotAvailable))
      else
        var price :- SegmentFare(db, car.route, req.departurePoint, req.arrivalPoint);
        Ok(ValidTicket(req, price))
  }

  /** A seat number above the carriage's seat amount is rejected on the
      seat-number field, whatever else the request says. */
  lemma SeatAboveAmountRejected(db: Db, req: TicketRequest)
    requires CarriageRow(db, req.carriage).Some?
    requires req.seatNumber > CarriageRow(db, req.carriage).value.seatAmount
    ensures ValidateTicket(db, req) == Err(FieldError(SeatNumber, SeatNotFound))
  {
  }

  /** For a seat number not above the seat amount, the request is refused as unavailable exactly
      when an existing ticket matches its arrival point, carriage and seat. */
  lemma UnavailableIffSameArrivalCarriageSeat(db: Db, req: TicketRequest)
    requires CarriageRow(db, req.carriage).Some?
    requires req.seatNumber <= CarriageRow(db, req.carriage).value.seatAmount
    ensures ValidateTicket(db, req) == Err(FieldError(SeatNumber, SeatNotAvailable)) <==>
      exists t :: t in db.tickets && t.arrivalPoint == req.arrivalPoint
        && t.carriage == req.carriage && t.seatNumber == req.seatNumber
  {
  }

  /** Past the seat checks, the outcome is the segment fare of the
      carriage's route. */
  lemma FareDecidesAfterSeatChecks(db: Db, req: TicketRequest)
    requires CarriageRow(db, req.carriage).Some?
    requires req.seatNumber <= CarriageRow(db, req.carriage).value.seatAmount
    requires !SeatTaken(db, req)
    ensures var fare := SegmentFare(db, CarriageRow(db, req.carriage).value.route, req.departurePoint, req.arrivalPoint);
            (fare.Ok? ==> ValidateTicket(db, req) == Ok(ValidTicket(req, fare.value)))
            && (fare.Err? ==> ValidateTicket(db, req) == Err(fare.error))
  {
  }

  /** A departure stop that is not strictly before the arrival stop gives
      "Invalid order" on the arrival-point field. */
  lemma {:induction false} ReversedSegmentIsInvalidOrder(db: Db, route: nat, dep: nat, arr: nat)
    requires StopRow(db, arr, route).Some? && StopRow(db, dep, route).Some?
    requires StopRow(db, dep, route).value.order >= StopRow(db, arr, route).value.order
    ensures SegmentFare(db, route, dep, arr) == Err(FieldError(ArrivalPointField, InvalidOrder))
  {
  }

  /** Departing from the route's origin point, which has no stop row of its
      own, fails the lookup instead of costing the full arrival fare. */
  lemma OriginDepartureFailsLookup(db: Db, route: Route, arr: nat)
    requires forall s :: s in db.stops && s.route == route.id ==> s.arrivalPoint != route.departurePoint
    ensures SegmentFare(db, route.id, route.departurePoint, arr) == Err(LookupError(Stops))
  {
  }

  /** Fares along one route add up: A to B plus B to C is A to C. */
  lemma SegmentFaresAdd(db: Db, route: nat, a: nat, b: nat, c: nat)
    requires SegmentFare(db, route, a, b).Ok? && SegmentFare(db, route, b, c).Ok?
    ensures SegmentFare(db, route, a, c) == Ok(SegmentFare(db, route, a, b).value + SegmentFare(db, route, b, c).value)
  {
  }

  /** Stop prices of a route never decrease as the stop order increases.
      Route creation does not establish this; it is a property of the data. */
  ghost predicate PricesFollowOrder(db: Db, route: nat) {
    forall s1, s2 ::
      (s1 in db.stops && s2 in db.stops && s1.route == route && s2.route == route && s1.order < s2.order)
      ==> s1.price <= s2.price
  }

  /** On a route whose prices follow the stop order, a fare is never negative. */
  lemma FareNonNegative(db: Db, route: nat, dep: nat, arr: nat)
    requires PricesFollowOrder(db, route)
    requires SegmentFare(db, route, dep, arr).Ok?
    ensures SegmentFare(db, route, dep, arr).value >= 0
  {
  }

  /** A route from origin 1 with stops A (point 2, fare 10) and B (point 3,
      fare 25): A to B costs 15, B to A is an invalid order, and departing
      from the origin is a lookup failure. */
  lemma TwoStopRouteFares(db: Db)
    requires db.stops == [Stop(1, 10, 36000, 2, 7), Stop(2, 25, 39600, 3, 7)]
    ensures SegmentFare(db, 7, 2, 3) == Ok(15)
    ensures SegmentFare(db, 7, 3, 2) == Err(FieldError(ArrivalPointField, InvalidOrder))
    ensures SegmentFare(db, 7, 1, 3) == Err(LookupError(Stops))
  {
    assert StopRow(db, 2, 7) == Some(db.stops[0]);
    assert StopRow(db, 3, 7) == Some(db.stops[1]);
  }

  /** A ticket holding the same seat in the same carriage does not block
      the request when it is for a different arrival point: only a match on
      all three fields does. */
  lemma SameSeatOtherArrivalAccepted(db: Db, req: TicketRequest)
    requires CarriageRow(db, req.carriage).Some?
    requires req.seatNumber <= CarriageRow(db, req.carriage).value.seatAmount
    requires exists t :: t in db.tickets && t.carriage == req.carriage && t.seatNumber == req.seatNumber
               && t.arrivalPoint != req.arrivalPoint
    requires !SeatTaken(db, req)
    requires SegmentFare(db, CarriageRow(db, req.carriage).value.route, req.departurePoint, req.arrivalPoint).Ok?
    ensures ValidateTicket(db, req).Ok?
  {
  }

  /** The seat number is bounded only from above: seat 0 or a negative seat
      is accepted like any other free seat. */
  lemma NonPositiveSeatAccepted(db: Db, req: TicketRequest)
    requires CarriageRow(db, req.carriage).Some? && CarriageRow(db, req.carriage).value.seatAmount >= 0
    requires req.seatNumber <= 0
    requires !SeatTaken(db, req)
    requires SegmentFare(db, CarriageRow(db, req.carriage).value.route, req.departurePoint, req.arrivalPoint).Ok?
    ensures ValidateTicket(db, req).Ok?
  {
  }
}
